=== FILE: README.md ===
# admin_eStore route rules in Dafny

This project models the request handling of the admin e-store back end: the
Express route handlers for products, users, brands, orders and reviews. Each
handler becomes a pure function. It takes the request fields and the current
store (`map<Id, Record>`) and returns a `Reply`: the HTTP status, the `message`
of the JSON answer, and the store afterwards. The product create and update
handlers run inside the upload library's callback, after the route's
`try`/`catch` has already returned. An error raised there, such as a failed
save, is never caught and no answer is sent. The rejected promise is left
unhandled, and on current Node versions an unhandled rejection ends the
process by default. The model gives such requests the status `NoAnswer` and
leaves the store unchanged.

What the handlers do, and what is proved about them:

- **Specification text** (`Specifications`). A product's specifications arrive
  as `key: value` lines. The text is split on CRLF only. Only the first two
  `:`-segments of a line count. Both segments must be non-empty before they
  are trimmed. Keys and values are stored trimmed. The last line for a key
  wins.
  - The JavaScript `trim` and `split` used here are modelled in `JsString`.
  - `Trim` is pinned down by its contract: it is the unique unpadded string the
    input pads.
  - Joining the pieces of a `Split` gives back the input.
- **Product images** (`ProductImages`). Up to five upload fields, `image1` to
  `image5`.
  - On create, each uploaded field gives one `{image: slot, url}` entry.
  - On update, each uploaded slot replaces the URL of the first entry for that
    slot, or appends a new entry.
  - Proved: no duplicate slots appear, other slots keep their URLs, the update
    is idempotent, and create equals the update applied to an empty list.
- **Products** (`Products`).
  - Create checks, in order: the required fields, then that the offer price
    does not exceed the price, then that the trimmed name is not taken. A
    request with no specifications text, or with a name that is blank once
    trimmed, gets no answer.
  - Update merges field by field: an empty field keeps the old value. It also
    handles the `"null"` variant type, the parse of `proVariantId` and the
    image upsert. A merged name that another product holds, or an empty
    quantity text, makes the save fail, and the request gets no answer.
  - Delete removes the product, or answers 404.
- **Users** (`Users`). The `isAdmin` gate and login. Register, with its
  required fields, the password confirmation and the defaults. Update, with
  the password checks and the `updateData` patch.
- **Brands** (`Brands`).
  - Create checks the image type, then the required fields, with `"no_url"` as
    the default image.
  - Update requires name, subcategory and image, and a file overrides the body's
    image. It then replaces all three fields.
  - Delete is refused while a product references the brand.
- **Orders and reviews** (`Orders`, `Reviews`). Required-field checks use
  JavaScript truthiness over JSON values. Updates change only the named fields.
  The answers are 404 for unknown ids. The listings filter by user or by
  product.
- **Ids.** An id in the URL path is taken to be a well-formed `ObjectId`,
  and `Id` is a plain string. "Unknown" means well-formed but not stored;
  a malformed id is under "## Left out".

Request values are modelled as follows:

- A text field is an `Option<string>`, with `None` for `undefined`. It is
  truthy when present and non-empty.
- A JSON body value is an `Option<Json>`, and `Truthy` gives JavaScript's rule.
- A numeric form field keeps its text together with what `parseFloat` reads
  from it (`NumText`), because the float parser is not modelled.
- `proVariantId` keeps its text together with what `JSON.parse` makes of it
  (`JsonText`).
- An uploaded file is its URL (and, for brands, its MIME type).

## Model

| member | source | states |
|---|---|---|
| JsString.Trim | routes/product.js:15 | the result has no whitespace at either end and is the input with only whitespace removed around it |
| JsString.TrimUnique | routes/product.js:15 | any unpadded string that the input pads with whitespace is the trim of the input, so trimming is fully determined |
| JsString.TrimIdempotent | routes/product.js:226-228 | trimming a trimmed string changes nothing |
| JsString.JoinSplit | routes/product.js:11 | joining the pieces of `s.split(sep)` with `sep` gives `s` back |
| JsString.SplitPieces | routes/product.js:13 | no piece of a split contains the separator |
| JsString.SplitFromAtSep | routes/product.js:13 | the first occurrence of a one-character separator ends the first piece |
| JsString.SplitFromNoOccurrence | routes/product.js:11 | without an occurrence of the separator a split gives the whole input as one piece |
| Specifications.Lines | routes/product.js:10-11 | the lines of a text are at least one, and joined with CRLF they give the text back |
| Specifications.LineEntry | routes/product.js:13-15 | a line without a colon contributes nothing, and any key and value a line contributes are trimmed and colon-free |
| Specifications.Collect | routes/product.js:12-18 | the reduce keeps every key and value trimmed and colon-free and never stores `__proto__` |
| Specifications.CollectAgrees | routes/product.js:12-17 | the left-to-right reduce agrees on every key with a search for the last line defining it |
| Specifications.ParseSpecifications | routes/product.js:9-21 | every stored key and value is trimmed and colon-free, and `__proto__` is never an own key |
| Specifications.ParseSpecificationsKeys | routes/product.js:10-18 | a key is in the map if and only if some CRLF-separated line defines it (both segments non-empty before trimming) and it is not `__proto__` |
| Specifications.ParseSpecificationsLastWins | routes/product.js:12-17 | when several lines define a key, the value of the last one is stored |
| Specifications.ParseSpecificationsEmpty | routes/product.js:10-18 | the empty text yields the empty map |
| Specifications.LineEntryFirstTwoSegments | routes/product.js:13-15 | `key:value:rest` contributes the trimmed key and value and drops `rest` |
| Specifications.LineEntryOneColon | routes/product.js:13-15 | `key:value` contributes the trimmed halves |
| Specifications.LineEntryEmptyValue | routes/product.js:13-14 | a line ending in its only colon contributes nothing |
| Specifications.LineEntryEmptyKey | routes/product.js:13-14 | any line starting with a colon, such as `":Color:red"`, has an empty key and contributes nothing |
| Specifications.LineEntryEmptyMiddle | routes/product.js:13-14 | `key::rest` has an empty second segment and contributes nothing, whatever follows |
| Specifications.LinesWithoutCarriageReturn | routes/product.js:11 | without a carriage return the whole text is one line; a bare line feed separates nothing |
| ProductImages.ImagesFromFacts | routes/product.js:140-149 | the list built from field `i + 1` on has one entry per uploaded field past `i`, in increasing slot order, each with its field's URL |
| ProductImages.CreateImages | routes/product.js:140-149 | at most five entries, slots strictly increasing within 1..5, each entry carrying the URL of its field, and exactly the uploaded slots present |
| ProductImages.Find | routes/product.js:274-276 | a found entry is the first one with the slot |
| ProductImages.FindAbsent | routes/product.js:274-276 | the search finds nothing exactly when no entry has the slot |
| ProductImages.UpsertUrls | routes/product.js:274-281 | after storing a file, the reader finds the new URL for its slot and the old URL for every other slot |
| ProductImages.UpsertShape | routes/product.js:274-281 | every entry keeps its slot, only the first entry for the slot may change, an entry is appended only when the slot was missing, and no duplicate slot appears |
| ProductImages.ApplyFromUploadedUrl | routes/product.js:268-283 | a slot whose field carries a file ends with that file's URL, whatever later fields hold |
| ProductImages.ApplyFromOtherUrl | routes/product.js:268-283 | a slot with no file in this request keeps the URL it had |
| ProductImages.ApplyUploads | routes/product.js:268-283 | uploaded slots carry their new URLs, all other slots keep theirs, existing entries keep their place, appended entries are new uploaded slots, and distinct, in-range slots stay so |
| ProductImages.CreateIsUpsertIntoEmpty | routes/product.js:140-149 | the create-time image list is the update's upsert applied to an empty list |
| ProductImages.ApplyUploadsIdempotent | routes/product.js:268-283 | uploading the same files twice gives the list that uploading them once gives |
| ProductImages.ApplyUploadsNothing | routes/product.js:268-283 | with no uploaded field the image list is unchanged |
| Products.NewProduct | routes/product.js:151-164 | the created document holds every field as sent, with name and description trimmed by the schema's setters, the variants as raw text, the parsed specifications, and the create-time image list: at most five entries, one per uploaded field with that field's URL, slots distinct and in range |
| Products.CreateProduct | routes/product.js:109-172 | missing required fields, then an offer above the price, then a name whose trimmed form is stored are refused with 400 in that order; a request passing them without specifications, or with a blank trimmed name, gets no answer; otherwise exactly the new product is added |
| Products.CreateKeepsUniqueNames | routes/product.js:129-166 | a create never leaves two products with one name, since the trimmed name it stores is one no stored product has |
| Products.UpdateProduct | routes/product.js:210-286 | 404 before the offer check, the offer check before the `proVariantId` parse; a save refused for a name another product holds or an empty quantity sends no answer and changes nothing; success replaces only that product by the merge |
| Products.UpdateKeepsUniqueNames | model/product.js:5-10 | an update never leaves two products with one name |
| Products.DeleteProduct | routes/product.js:300-306 | an unknown id gives 404 and an unchanged store, else exactly that product is removed |
| Products.DeleteKeepsUniqueNames | routes/product.js:300-306 | a delete never leaves two products with one name |
| Products.PaddedNameRefused | routes/product.js:130-136 | a name that differs from a stored one only by a leading space is refused as taken |
| Products.RenameToTakenNameUnanswered | routes/product.js:226-285 | renaming a product to another product's name gets no answer and leaves the store as it was |
| Products.BlankQuantityUnanswered | routes/product.js:229-285 | an update sending an empty quantity gets no answer and leaves the store as it was |
| Products.MergeNothing | routes/product.js:225-283 | an update that submits nothing leaves the product as it was |
| Products.MergeIdempotent | routes/product.js:225-283 | sending the same update twice has the effect of sending it once |
| Products.MergeKeepsUnsent | routes/product.js:226-265 | a field the handler's guard finds falsy keeps its stored value: a name or description blank once trimmed, an absent quantity, a price or offer that is absent or empty, an empty category, subcategory or brand, a variant type that is empty or `"null"`, variants whose text is empty or does not parse to an array, and empty specifications |
| Products.MergeTakesSent | routes/product.js:226-265 | non-blank names and descriptions are stored trimmed, truthy price, offer, category, subcategory and brand replace the old ones, any sent quantity replaces it, a variant type other than `"null"` replaces it, sent text that parses to an array replaces the variants, and sent specifications are re-parsed |
| Products.MergeVariantsOnlyArrays | routes/product.js:247-259 | the stored variants change only to an array that was sent and parsed |
| Products.MergeImages | routes/product.js:268-283 | after the merge, uploaded slots carry their new URLs, others keep theirs, and slots stay distinct and in range |
| Products.OfferNeedsSubmittedPrice | routes/product.js:218-223 | on update, without a submitted price the offer check never refuses |
| Products.OfferEqualToPriceAccepted | routes/product.js:122-127 | an offer that reads as the same number as the price is never refused by the offer check, on create or on update |
| Products.UpdateKeepsImagesValid | routes/product.js:268-283 | an update keeps the image list free of duplicate slots and within 1..5 |
| Users.IsAdmin | routes/user.js:8-14 | the request goes on if and only if a user is present whose role is exactly `"admin"`; otherwise 403 "Access denied." |
| Users.Login | routes/user.js:38-47 | 200 with the stored user if and only if a user has the email and the stored password equals the one sent; otherwise 401 |
| Users.Registered | routes/user.js:113-123 | a new user has the email and password as sent, no name, role `"user"` and the default avatar |
| Users.Register | routes/user.js:96-134 | missing fields, then a password mismatch, give 400; a taken email fails the save with 500; otherwise exactly the new user is added; unique emails and valid roles are preserved |
| Users.BuildPatch | routes/user.js:188-204 | the patch holds exactly the truthy fields among name, email, phone, street, city, state, postalCode, country and role, and avatar when a file came, each with the value sent; never a password |
| Users.PasswordCheck | routes/user.js:171-185 | a sent old password that differs from the stored one is refused first; then a sent new password that differs from its confirmation |
| Users.UpdateUserAsWritten | routes/user.js:164-224 | 404 before the password checks, 400 with the password check's own message when it fails, 400 "No fields to update." exactly when the checks pass and the patch is empty, 500 for a role outside the enum or an email another user holds, else 200 with the patch applied |
| Users.PatchWithPassword | routes/user.js:188-204 | the corrected patch is the handler's patch plus a sent new password under `password` |
| Users.UpdateUser | routes/user.js:164-224 | the corrected update: the same checks and answers, 200 in every remaining case, and "No fields to update." exactly when the corrected patch is empty, with a confirmed new password counted in the patch |
| Users.UpdateStoresNewPassword | routes/user.js:180-218 | after a successful corrected update the user holds the confirmed new password, or the old one when none was sent, and no other user changes |
| Users.UpdateAgreesWithoutNewPassword | routes/user.js:188-218 | without a new password the corrected and the written update answer and store alike |
| Users.DeleteUser | routes/user.js:237-243 | an unknown id gives 404, else exactly that user is removed |
| Users.RegisterThenLogin | routes/user.js:111-126 | a user who has just registered can log in with that email and password |
| Users.LoginNeedsStoredPassword | routes/user.js:38-44 | for a stored email, login succeeds exactly with the stored password |
| Users.UpdateAsWrittenKeepsPassword | routes/user.js:188-218 | the update as written never changes a stored password |
| Users.AsWrittenNewPasswordRefused | routes/user.js:180-218 | after a 200 answer to a request with a confirmed new password, login still refuses that new password |
| Users.NewPasswordIgnored | routes/user.js:171-218 | a request with the right old password, a confirmed new one and a new name gets 200 from the update as written |
| Users.UpdateThenLoginWithNewPassword | routes/user.js:180-218 | with the correction, login accepts the confirmed new password afterwards |
| Users.UpdateKeepsUniqueEmails | model/user.js:7-11 | an update never leaves two users with one email |
| Users.UpdateKeepsValidRoles | model/user.js:16-20 | an update keeps every role within `user` and `admin` |
| Users.UpdateAsWrittenKeepsUniqueEmails | model/user.js:7-11 | the update as written never leaves two users with one email |
| Users.UpdateAsWrittenKeepsValidRoles | model/user.js:16-20 | the update as written keeps every role within `user` and `admin` |
| Users.DeleteKeepsInvariants | routes/user.js:237-243 | a delete keeps emails unique and roles within the enum |
| Users.RegisteredNotAdmin | routes/user.js:8-14 | the admin gate refuses a freshly registered user with 403 |
| Users.SelfPromotion | routes/user.js:142-218 | the update route has no admin gate, so a stored user who sends only `role: "admin"` gets 200, and the gate then lets that user through |
| Users.UnknownFieldsOnly | routes/user.js:193-218 | on the handler as written, a body holding only fields the schema lacks passes the empty-patch check, gets 200 and changes nothing |
| Users.ApplyPatchPaths | routes/user.js:214-217 | applying `updateData` never touches the password, and a patch with no schema path changes nothing |
| Users.AsWrittenAccepted | routes/user.js:188-218 | past the password checks, a non-empty patch the validators accept is stored and answered with 200 |
| Users.NameOnlyAccepted | routes/user.js:171-218 | past the password checks, a new name with no email and no role is always stored with 200 |
| Brands.ChosenImage | routes/brand.js:121-125 | on update, an uploaded file's URL is the image, else the body's image |
| Brands.ImageOf | routes/brand.js:70-80 | a new brand's image is the file's URL, and `"no_url"` without a file |
| Brands.CreateBrand | routes/brand.js:69-96 | a file type outside jpeg, png and gif is refused before the missing-field check; otherwise exactly the new brand with name, subcategory and image is added |
| Brands.UpdateBrand | routes/brand.js:120-151 | name, subcategory and image are required before the lookup; then 404 for an unknown brand, else the three fields replace the stored ones |
| Brands.DeleteBrand | routes/brand.js:166-184 | any referencing product gives 400 even for an unknown brand; then 404; else exactly that brand is removed |
| Brands.DeleteKeepsBrandsResolved | routes/brand.js:169-178 | deleting a brand never leaves a product naming a missing brand |
| Brands.NoUrlIsAnImage | routes/brand.js:121-132 | the default `"no_url"` counts as an image on update, and a missing image without a file is refused |
| Brands.UpdateTakesAnyFile | routes/brand.js:123-125 | an update takes an uploaded file's URL whatever its type and whatever the body's image |
| Brands.UpdateWithStoredFields | routes/brand.js:135-139 | updating a brand with its stored fields leaves the store as it was |
| Brands.CreateThenUpdateUnchanged | routes/brand.js:69-139 | a brand just created, `"no_url"` image included, passes the update's checks with its stored fields, and that update changes nothing |
| Orders.CreateOrder | routes/order.js:85-116 | any falsy one of the six required fields (so a total of 0) gives 400; otherwise the body is stored as sent, totals and status included |
| Orders.UpdateOrder | routes/order.js:129-152 | a falsy status gives 400 before the lookup; 404 for an unknown order; else only that order's status changes, to any value |
| Orders.DeleteOrder | routes/order.js:165-171 | an unknown id gives 404, else exactly that order is removed |
| Orders.OrdersOfUser | routes/order.js:31-39 | the listing holds exactly the orders whose userID is the given id |
| Orders.CreatedOrderListed | routes/order.js:101-111 | a created order is listed under its user at once |
| Orders.CreateLeavesOtherListings | routes/order.js:31 | creating an order leaves every other user's listing unchanged |
| Orders.UpdateKeepsListings | routes/order.js:136-140 | a status update moves no order between listings |
| Orders.DeletedOrderUnlisted | routes/order.js:165 | a deleted order leaves its user's listing and nothing else does |
| Orders.UpdateOrderIdempotent | routes/order.js:136-140 | repeating a status update changes nothing more |
| Reviews.CreateReview | routes/review.js:59-82 | a falsy product, user or rating gives 400; otherwise the body is stored as sent |
| Reviews.ReviewsOfProduct | routes/review.js:32-47 | the listing holds exactly the reviews of the product, and it is 404 exactly when there are none |
| Reviews.UpdateReview | routes/review.js:94-114 | an unknown id gives 404; else only that review changes, by the truthy-only patch |
| Reviews.DeleteReview | routes/review.js:127-141 | an unknown id gives 404, else exactly that review is removed |
| Reviews.DeletedReviewUnlisted | routes/review.js:127-136 | a deleted review leaves its product's listing, and no other review does |
| Reviews.Patch | routes/review.js:106-107 | the patch never changes a review's product or user |
| Reviews.PatchFields | routes/review.js:103-107 | the patch keeps product and user; a truthy rating or comment replaces the stored one and a falsy one keeps it |
| Reviews.ZeroRatingIgnored | routes/review.js:106 | a rating of 0 cannot be set |
| Reviews.PatchIdempotent | routes/review.js:106-107 | the patch is idempotent, and an empty patch changes nothing |
| Reviews.CreatedReviewListed | routes/review.js:69-76 | a created review is listed under its product and the listing answers 200 |
| Reviews.UpdateKeepsListing | routes/review.js:106-109 | an update keeps every review in its product's listing |

## Findings

| source | as written | input that shows it | evidently intended | confidence | as-written member | corrected member |
|---|---|---|---|---|---|---|
| routes/user.js:180-218 | `new_password` is checked against `confirm_new_password` but never put into `updateData`, so the password never changes | old password `"old"`, `new_password` and `confirm_new_password` both `"new"`, name `"N"`: the answer is 200, and afterwards login refuses `"new"` (`Users.NewPasswordIgnored`, `Users.AsWrittenNewPasswordRefused`) | a confirmed new password is stored | medium, not executed | Users.UpdateUserAsWritten | Users.UpdateUser |

## Left out

- `routes/payment.js` is not part of this model. It is a call into the Stripe SDK, which is network I/O.
- The order state machine, pricing, coupons and payment orchestration are not part of this model. The handlers contain none: they store totals and statuses as sent.
- Multer is left out: upload errors, size limits, the fields' MIME filters and the building of the `BASE_URL` file URLs. A file is its URL, an opaque non-empty string.
- Mongoose is left out: `populate`, the `_id` sort of the listings, and casting to `Number`, `ObjectId` and `[String]`. A value that fails its cast, or that casts to `null` on a required path, makes the save fail. In the user, order and review handlers, in brand update and delete, and in product delete, that failure reaches a `catch` and answers 500. In product create, product update and brand create the save runs inside the upload callback, and no answer is sent at all. The model treats every value as casting cleanly, with two exceptions on products: an empty quantity text on update and a name that is blank once trimmed on create. Other failing casts in a request body, such as a quantity like `"abc"` or a malformed category id, are not modelled. For those the model answers 200 and stores the value.
- Ids in the URL path are assumed to be well-formed `ObjectId`s. In the source, a malformed id such as `"abc"` makes the query reject with a cast error. This affects:
  - the by-id lookups: `findById`, `findByIdAndUpdate` and `findByIdAndDelete` at routes/product.js:210 and :300, routes/user.js:164 and :237, routes/brand.js:135 and :178, routes/order.js:136 and :165, and routes/review.js:94 and :127;
  - the reference check `Product.find({ proBrandId })` at routes/brand.js:169;
  - the review listing `Review.find({ productId })` at routes/review.js:32.
  There the source answers 500 from the `catch`. Product update is the exception: its lookup runs inside the upload callback, outside any `try`, so no answer is sent. The model treats a malformed id like any other string. The lookups and the review listing answer 404, because nothing is stored under it. Brand delete answers 400 only if a stored product's brand field holds that same text, which a field cast to `ObjectId` never does, and 404 otherwise.
- The schema's `trim` setter is modelled for product names and descriptions, in the stored document and in the `findOne({ name })` filter.
- The 500 answers of the `catch` blocks are left out, with one exception. Failures the store itself raises in the user handlers are modelled: the unique index on email and the role enum under `runValidators`. Those reach a `catch`, and their message, the driver's error text, is the empty string `DriverError`. The same failures in the product create and update handlers are modelled as `NoAnswer`.
- The GET-all and GET-by-id routes are left out. They only read the store.
- `parseFloat` is left out: the number it reads from a field comes with the field (`NumText`). `JSON.parse` is left out the same way (`JsonText`).
- Brands.CreateBrand: its save runs inside the upload callback, so a failed save would get no answer. The model has no failing brand save: brand fields are plain strings, and a malformed `subcategoryId` cast is not modelled.
- Specifications.ParseSpecifications: `specifications` is a Mongoose `Map`, which refuses keys containing `.` or starting with `$`, so such a key makes the request fail before or at the save. The model stores such keys.
- Products.CreateProduct: the duplicate-name check and the save are one step. A concurrent create between them is not modelled.
- Users.Login: `findOne({ email })` with no email is taken to find nobody.
- Users.Register: the address fields (`phone`, `street`, `city`, `state`, `postalCode`, `country`) are dropped before the model. The user schema has no such paths, so strict mode never stores them.
- Reviews.DeleteReview: the handler calls `review.remove()`. Whether the installed Mongoose still has that method is not visible here, so removal is modelled as it reads.
- The upload library's error answers are left out. On product create and on the brand routes they are 200 with `success: false`, and the model's `Reply` carries no `success` flag. On product update they are 500 with the library's error text.

=== FILE: brands.dfy ===
/** The brand routes: create with its image-type check, update as a full
    replacement, delete refused while products reference the brand. */
module Brands {
  import opened Common
  import Products

  /** A brand document: its name, its subcategory and its image URL. */
  datatype Brand = Brand(name: string, subcategoryId: Id, image: string)

  /** A file the upload layer accepted: its declared MIME type and the URL it
      is served at. */
  datatype BrandFile = BrandFile(mimetype: string, url: Url)

  /** `imageFileTypes`. */
  const ImageFileTypes: set<string> := {"image/jpeg", "image/png", "image/gif"}

  /** The image stored when a brand is created without a file. */
  const NoUrl := "no_url"

  const MsgInvalidType := "Invalid file type. Only images are allowed."
  const MsgCreateRequired := "Name and subcategory ID are required."
  const MsgCreated := "Brand created successfully."
  const MsgUpdateRequired := "Name and subcategory ID, image are required."
  const MsgNotFound := "Brand not found."
  const MsgUpdated := "Brand updated successfully."
  const MsgReferenced := "Cannot delete brand. Products are referencing it."
  const MsgDeleted := "Brand deleted successfully."

  /** The image a new brand gets: the file's URL, or `"no_url"`. */
  function ImageOf(file: Option<BrandFile>): (image: string)
    ensures image != NoUrl ==> file.Some?
    ensures file.Some? ==> image == file.value.url
  {
    if file.Some? then file.value.url else NoUrl
  }

  /** `POST /brands`. A file of the wrong type is refused before the
      required fields are looked at. */
  function CreateBrand(store: map<Id, Brand>, name: Option<string>, subcategoryId: Option<string>,
                       file: Option<BrandFile>, newId: Id): (r: Reply<map<Id, Brand>>)
    requires newId !in store
    ensures r.message == MsgInvalidType <==> file.Some? && file.value.mimetype !in ImageFileTypes
    ensures r.message == MsgCreateRequired <==>
      !(file.Some? && file.value.mimetype !in ImageFileTypes) && (!Filled(name) || !Filled(subcategoryId))
    ensures r.status == BadRequest <==> r.message == MsgInvalidType || r.message == MsgCreateRequired
    ensures r.status == BadRequest || r.status == Ok
    ensures r.status == BadRequest ==> r.state == store
    ensures r.status == Ok ==>
      && r.state.Keys == store.Keys + {newId}
      && (forall id | id in store :: r.state[id] == store[id])
      && r.state[newId].name == name.value && r.state[newId].subcategoryId == subcategoryId.value
      && (file.None? ==> r.state[newId].image == NoUrl)
      && (file.Some? ==> file.value.mimetype in ImageFileTypes && r.state[newId].image == file.value.url)
  {
    if file.Some? && file.value.mimetype !in ImageFileTypes then Reply(BadRequest, MsgInvalidType, store)
    else if !Filled(name) || !Filled(subcategoryId) then Reply(BadRequest, MsgCreateRequired, store)
    else Reply(Ok, MsgCreated, store[newId := Brand(name.value, subcategoryId.value, ImageOf(file))])
  }

  /** `let image = req.body.image; if (req.file) image = <file URL>`. */
  function ChosenImage(bodyImage: Option<string>, file: Option<BrandFile>): (image: Option<string>)
    ensures file.Some? ==> image == Some(file.value.url)
    ensures file.None? ==> image == bodyImage
  {
    if file.Some? then Some(file.value.url) else bodyImage
  }

  /** `PUT /brands/:id`: name, subcategory and an image (the file's, else the
      body's) are required, checked before the brand is looked up; then the
      three fields replace the stored ones. The file's type is not checked
      here. */
  function UpdateBrand(store: map<Id, Brand>, id: Id, name: Option<string>, subcategoryId: Option<string>,
                       bodyImage: Option<string>, file: Option<BrandFile>): (r: Reply<map<Id, Brand>>)
    ensures r.message == MsgUpdateRequired <==>
      !Filled(name) || !Filled(subcategoryId) || !Filled(ChosenImage(bodyImage, file))
    ensures r.status == BadRequest <==> r.message == MsgUpdateRequired
    ensures r.status == NotFound <==> r.message != MsgUpdateRequired && id !in store
    ensures r.status in {Ok, BadRequest, NotFound}
    ensures r.status != Ok ==> r.state == store
    ensures r.status == Ok ==>
      && id in store
      && r.state == store[id := Brand(name.value, subcategoryId.value, ChosenImage(bodyImage, file).value)]
  {
    var image := ChosenImage(bodyImage, file);
    if !Filled(name) || !Filled(subcategoryId) || !Filled(image) then Reply(BadRequest, MsgUpdateRequired, store)
    else if id !in store then Reply(NotFound, MsgNotFound, store)
    else Reply(Ok, MsgUpdated, store[id := Brand(name.value, subcategoryId.value, image.value)])
  }

  /** Some product names this brand. */
  predicate Referenced(products: map<Id, Products.Product>, id: Id) {
    exists p | p in products :: products[p].proBrandId == Some(id)
  }

  /** `DELETE /brands/:id`: refused while any product references the brand,
      a check made before the brand is looked up. */
  function DeleteBrand(store: map<Id, Brand>, products: map<Id, Products.Product>, id: Id)
    : (r: Reply<map<Id, Brand>>)
    ensures r.status == BadRequest <==> Referenced(products, id)
    ensures r.status == NotFound <==> !Referenced(products, id) && id !in store
    ensures r.status in {Ok, BadRequest, NotFound}
    ensures r.status != Ok ==> r.state == store
    ensures r.status == Ok ==> id in store && r.state == store - {id}
  {
    if Referenced(products, id) then Reply(BadRequest, MsgReferenced, store)
    else if id !in store then Reply(NotFound, MsgNotFound, store)
    else Reply(Ok, MsgDeleted, store - {id})
  }

  /** Every brand a product names exists. */
  ghost predicate BrandsResolve(store: map<Id, Brand>, products: map<Id, Products.Product>) {
    forall p | p in products && products[p].proBrandId.Some? :: products[p].proBrandId.value in store
  }

  /** Deleting a brand never leaves a product naming a missing brand. */
  lemma DeleteKeepsBrandsResolved(store: map<Id, Brand>, products: map<Id, Products.Product>, id: Id)
    requires BrandsResolve(store, products)
    ensures BrandsResolve(DeleteBrand(store, products, id).state, products)
  {
    var r := DeleteBrand(store, products, id);
    if r.status == Ok {
      forall p | p in products && products[p].proBrandId.Some?
        ensures products[p].proBrandId.value in r.state
      {
        assert products[p].proBrandId != Some(id);
      }
    }
  }

  /** On update the default `"no_url"` counts as an image: sending it back is
      accepted, while sending neither an image nor a file is refused. */
  lemma NoUrlIsAnImage(store: map<Id, Brand>, id: Id, name: string, subcategoryId: string)
    requires id in store && name != "" && subcategoryId != ""
    ensures UpdateBrand(store, id, Some(name), Some(subcategoryId), Some(NoUrl), None).status == Ok
    ensures UpdateBrand(store, id, Some(name), Some(subcategoryId), None, None).status == BadRequest
  {
  }

  /** An update with a file takes the file's URL whatever its type, and
      whatever the body's `image` says. */
  lemma UpdateTakesAnyFile(store: map<Id, Brand>, id: Id, name: string, subcategoryId: string,
                           bodyImage: Option<string>, file: BrandFile)
    requires id in store && name != "" && subcategoryId != ""
    ensures var r := UpdateBrand(store, id, Some(name), Some(subcategoryId), bodyImage, Some(file));
      r.status == Ok && r.state[id].image == file.url
  {
  }

  /** A brand just created can be updated with the fields it was stored
      with, which changes nothing. */
  lemma CreateThenUpdateUnchanged(store: map<Id, Brand>, name: Option<string>, subcategoryId: Option<string>,
                                  file: Option<BrandFile>, newId: Id)
    requires newId !in store && CreateBrand(store, name, subcategoryId, file, newId).status == Ok
    ensures var s := CreateBrand(store, name, subcategoryId, file, newId).state;
      var b := s[newId];
      var r := UpdateBrand(s, newId, Some(b.name), Some(b.subcategoryId), Some(b.image), None);
      r.status == Ok && r.state == s
  {
    var s := CreateBrand(store, name, subcategoryId, file, newId).state;
    assert s[newId].image != "";
    UpdateWithStoredFields(s, newId);
  }

  /** Updating with the stored fields leaves the store as it was. */
  lemma UpdateWithStoredFields(store: map<Id, Brand>, id: Id)
    requires id in store && store[id].name != "" && store[id].subcategoryId != "" && store[id].image != ""
    ensures var b := store[id];
      UpdateBrand(store, id, Some(b.name), Some(b.subcategoryId), Some(b.image), None).state == store
  {
  }
}

=== FILE: common.dfy ===
/** Shared vocabulary of the route handlers: optional request fields, the HTTP
    statuses the handlers answer with, JSON request values and JavaScript
    truthiness over them. */
module Common {

  /** A request field that may be absent (`undefined` in the handler). */
  datatype Option<+T> = None | Some(value: T)

  /** The HTTP status a handler answers with. `NoAnswer` stands for a
      handler that sends nothing at all: an error escaped the upload callback
      that was to answer, after the route's `try`/`catch` had returned. */
  datatype Status = Ok | BadRequest | Unauthorized | Forbidden | NotFound | ServerError | NoAnswer {
    function Code(): int
      requires !NoAnswer?
    {
      match this
      case Ok => 200
      case BadRequest => 400
      case Unauthorized => 401
      case Forbidden => 403
      case NotFound => 404
      case ServerError => 500
    }
  }

  /** A handler's answer: its status, the `message` of its JSON body, and the
      state (store or payload) after it. */
  datatype Reply<S> = Reply(status: Status, message: string, state: S)

  /** The message of a 500 answer: the database driver's own error text,
      which is not part of this model. */
  const DriverError := ""

  /** The message of a `NoAnswer` reply: nothing was sent. */
  const Silence := ""

  /** A document identifier, opaque to the handlers. */
  type Id = string

  /** The URL or path of an uploaded file; the upload layer always builds a
      non-empty one. */
  type Url = s: string | s != "" witness "/"

  /** Truthiness of a text field: present and not the empty string. */
  predicate Filled(f: Option<string>) {
    f.Some? && f.value != ""
  }

  /** A value of a JSON request body. */
  datatype Json =
    | JNull
    | JBool(b: bool)
    | JNum(n: real)
    | JStr(s: string)
    | JArray(items: seq<Json>)
    | JObject(fields: map<string, Json>)

  /** JavaScript truthiness of an optional JSON value: `undefined`, `null`,
      `false`, `0` and `""` are falsy; arrays and objects are always truthy. */
  predicate Truthy(v: Option<Json>) {
    match v
    case None => false
    case Some(JNull) => false
    case Some(JBool(b)) => b
    case Some(JNum(n)) => n != 0.0
    case Some(JStr(s)) => s != ""
    case Some(JArray(_)) => true
    case Some(JObject(_)) => true
  }
}

=== FILE: jsstring.dfy ===
/** The two JavaScript string operations the handlers rely on:
    `String.prototype.trim` and `String.prototype.split` with a string
    separator. */
module JsString {

  /** ECMAScript WhiteSpace and LineTerminator code points, the characters
      `trim` removes. */
  predicate IsSpace(c: char) {
    || c == '\t' || c == '\n' || c == '\U{B}' || c == '\U{C}' || c == '\r'
    || c == ' ' || c == '\U{A0}' || c == '\U{1680}'
    || ('\U{2000}' <= c <= '\U{200A}')
    || c == '\U{2028}' || c == '\U{2029}' || c == '\U{202F}' || c == '\U{205F}'
    || c == '\U{3000}' || c == '\U{FEFF}'
  }

  predicate AllSpace(s: string) {
    forall i | 0 <= i < |s| :: IsSpace(s[i])
  }

  /** Neither end of `s` is whitespace. */
  predicate Unpadded(s: string) {
    s == "" || (!IsSpace(s[0]) && !IsSpace(s[|s| - 1]))
  }

  /** `s` is `r` with whitespace added on either side. */
  ghost predicate PaddedBy(s: string, r: string) {
    exists lead :: 0 <= lead <= |s| - |r| && s[lead..lead + |r|] == r
      && AllSpace(s[..lead]) && AllSpace(s[lead + |r|..])
  }

  function TrimStart(s: string): (r: string)
    ensures |r| <= |s| && r == s[|s| - |r|..]
    ensures AllSpace(s[..|s| - |r|])
    ensures r == "" || !IsSpace(r[0])
    decreases |s|
  {
    if s != "" && IsSpace(s[0]) then TrimStart(s[1..]) else s
  }

  function TrimEnd(s: string): (r: string)
    ensures |r| <= |s| && r == s[..|r|]
    ensures AllSpace(s[|r|..])
    ensures r == "" || !IsSpace(r[|r| - 1])
    decreases |s|
  {
    if s != "" && IsSpace(s[|s| - 1]) then
      var r := TrimEnd(s[..|s| - 1]);
      assert s[|r|..] == s[..|s| - 1][|r|..] + [s[|s| - 1]];
      r
    else s
  }

  /** `String.prototype.trim`: strips whitespace from both ends. */
  function Trim(s: string): (r: string)
    ensures Unpadded(r)
    ensures PaddedBy(s, r)
  {
    var t := TrimStart(s);
    var r := TrimEnd(t);
    TrimWindow(s, t, r);
    r
  }

  /** Stripping a whitespace prefix and then a whitespace suffix leaves an
      unpadded window that the input pads. */
  lemma TrimWindow(s: string, t: string, r: string)
    requires |t| <= |s| && t == s[|s| - |t|..] && AllSpace(s[..|s| - |t|]) && (t == "" || !IsSpace(t[0]))
    requires |r| <= |t| && r == t[..|r|] && AllSpace(t[|r|..]) && (r == "" || !IsSpace(r[|r| - 1]))
    ensures Unpadded(r) && PaddedBy(s, r)
  {
    var lead := |s| - |t|;
    assert s[lead..lead + |r|] == r;
    assert s[lead + |r|..] == t[|r|..];
    assert r != "" ==> r[0] == t[0];
  }

  /** The offset at which `s` holds the window `r`. */
  lemma PaddedLead(s: string, r: string) returns (lead: int)
    requires PaddedBy(s, r)
    ensures 0 <= lead <= |s| - |r| && s[lead..lead + |r|] == r
    ensures AllSpace(s[..lead]) && AllSpace(s[lead + |r|..])
  {
    lead :| 0 <= lead <= |s| - |r| && s[lead..lead + |r|] == r && AllSpace(s[..lead]) && AllSpace(s[lead + |r|..]);
  }

  /** Trimming an already trimmed string changes nothing. */
  lemma TrimIdempotent(s: string)
    ensures Trim(Trim(s)) == Trim(s)
  {
  }

  lemma SpacePrefixBound(s: string, a: int, i: int)
    requires 0 <= a <= |s| && AllSpace(s[..a])
    requires 0 <= i < |s| && !IsSpace(s[i])
    ensures a <= i
  {
    assert forall j | 0 <= j < a :: s[..a][j] == s[j];
  }

  lemma SpaceSuffixBound(s: string, e: int, i: int)
    requires 0 <= e <= |s| && AllSpace(s[e..])
    requires 0 <= i < |s| && !IsSpace(s[i])
    ensures i < e
  {
    assert forall j | e <= j < |s| :: s[e..][j - e] == s[j];
  }

  /** Two unpadded windows of `s` with only whitespace around them coincide. */
  lemma SameWindow(s: string, a: int, t: string, b: int, r: string)
    requires Unpadded(t) && 0 <= a <= |s| - |t| && s[a..a + |t|] == t
    requires AllSpace(s[..a]) && AllSpace(s[a + |t|..])
    requires Unpadded(r) && 0 <= b <= |s| - |r| && s[b..b + |r|] == r
    requires AllSpace(s[..b]) && AllSpace(s[b + |r|..])
    ensures t == r
  {
    if t != "" {
      assert t[0] == s[a] && t[|t| - 1] == s[a + |t| - 1];
      SpacePrefixBound(s, b, a);
      SpaceSuffixBound(s, b + |r|, a + |t| - 1);
    }
    if r != "" {
      assert r[0] == s[b] && r[|r| - 1] == s[b + |r| - 1];
      SpacePrefixBound(s, a, b);
      SpaceSuffixBound(s, a + |t|, b + |r| - 1);
    }
  }

  /** `Trim(s)` is the only unpadded string that `s` pads: trimming is fully
      determined by the two contracts above. */
  lemma TrimUnique(s: string, t: string)
    requires Unpadded(t) && PaddedBy(s, t)
    ensures t == Trim(s)
  {
    var r := Trim(s);
    var a := PaddedLead(s, t);
    var b := PaddedLead(s, r);
    SameWindow(s, a, t, b, r);
  }

  /** `sep` occurs in `s` starting at index `i`. */
  ghost predicate OccursAt(sep: string, s: string, i: int) {
    0 <= i && i + |sep| <= |s| && s[i..i + |sep|] == sep
  }

  ghost predicate Occurs(sep: string, s: string) {
    exists i :: OccursAt(sep, s, i)
  }

  /** `String.prototype.split(sep)` scanning from the left, with `cur` the
      piece gathered so far: every leftmost occurrence of `sep` ends a piece. */
  function SplitFrom(s: string, sep: string, cur: string): (r: seq<string>)
    requires sep != ""
    ensures |r| >= 1
    decreases |s|
  {
    if |s| < |sep| then [cur + s]
    else if s[..|sep|] == sep then [cur] + SplitFrom(s[|sep|..], sep, "")
    else SplitFrom(s[1..], sep, cur + [s[0]])
  }

  /** `s.split(sep)` for a non-empty separator; `"".split(sep)` is `[""]`. */
  function Split(s: string, sep: string): (r: seq<string>)
    requires sep != ""
    ensures |r| >= 1
  {
    SplitFrom(s, sep, "")
  }

  /** `parts.join(sep)`. */
  function Join(parts: seq<string>, sep: string): string
    decreases |parts|
  {
    if |parts| == 0 then ""
    else if |parts| == 1 then parts[0]
    else parts[0] + sep + Join(parts[1..], sep)
  }

  lemma {:induction false} JoinSplitFrom(s: string, sep: string, cur: string)
    requires sep != ""
    ensures Join(SplitFrom(s, sep, cur), sep) == cur + s
    decreases |s|
  {
    if |s| < |sep| {
    } else if s[..|sep|] == sep {
      var rest := SplitFrom(s[|sep|..], sep, "");
      JoinSplitFrom(s[|sep|..], sep, "");
      assert ([cur] + rest)[1..] == rest;
      assert s == sep + s[|sep|..];
    } else {
      JoinSplitFrom(s[1..], sep, cur + [s[0]]);
      assert cur + [s[0]] + s[1..] == cur + s;
    }
  }

  /** Splitting loses nothing: joining the pieces back gives the input. */
  lemma JoinSplit(s: string, sep: string)
    requires sep != ""
    ensures Join(Split(s, sep), sep) == s
  {
    JoinSplitFrom(s, sep, "");
  }

  lemma {:induction false} SplitFromPieces(s: string, sep: string, cur: string)
    requires sep != ""
    requires forall i | 0 <= i < |cur| :: !OccursAt(sep, cur + s, i)
    ensures forall p | p in SplitFrom(s, sep, cur) :: !Occurs(sep, p)
    decreases |s|
  {
    if |s| < |sep| {
      assert forall i :: OccursAt(sep, cur + s, i) ==> i < |cur|;
    } else if s[..|sep|] == sep {
      forall i | 0 <= i
        ensures !OccursAt(sep, cur, i)
      {
        if i + |sep| <= |cur| {
          assert (cur + s)[i..i + |sep|] == cur[i..i + |sep|];
          assert !OccursAt(sep, cur + s, i);
        }
      }
      SplitFromPieces(s[|sep|..], sep, "");
    } else {
      var cur' := cur + [s[0]];
      assert cur' + s[1..] == cur + s;
      assert (cur + s)[|cur|..|cur| + |sep|] == s[..|sep|];
      SplitFromPieces(s[1..], sep, cur');
    }
  }

  /** No piece of a split contains the separator. */
  lemma SplitPieces(s: string, sep: string)
    requires sep != ""
    ensures forall p | p in Split(s, sep) :: !Occurs(sep, p)
  {
    SplitFromPieces(s, sep, "");
  }

  /** For a one-character separator, occurring means being a member. */
  lemma OccursChar(c: char, s: string)
    ensures Occurs([c], s) <==> c in s
  {
    if c in s {
      var i :| 0 <= i < |s| && s[i] == c;
      assert OccursAt([c], s, i);
    }
    if Occurs([c], s) {
      var i :| OccursAt([c], s, i);
      assert s[i..i + 1][0] == s[i];
    }
  }

  /** Splitting on a character that does not occur gives one piece. */
  lemma {:induction false} SplitFromNoSep(s: string, c: char, cur: string)
    requires c !in s
    ensures SplitFrom(s, [c], cur) == [cur + s]
    decreases |s|
  {
    if |s| >= 1 {
      assert s[..1] == [s[0]];
      SplitFromNoSep(s[1..], c, cur + [s[0]]);
      assert cur + [s[0]] + s[1..] == cur + s;
    }
  }

  /** The first occurrence of a one-character separator ends the first piece. */
  lemma {:induction false} SplitFromAtSep(x: string, c: char, y: string, cur: string)
    requires c !in x
    ensures SplitFrom(x + [c] + y, [c], cur) == [cur + x] + SplitFrom(y, [c], "")
    decreases |x|
  {
    var s := x + [c] + y;
    if |x| == 0 {
      assert s == [c] + y && s[..1] == [c] && s[1..] == y;
      assert cur + x == cur;
    } else {
      assert s[..1] == [x[0]] && s[1..] == x[1..] + [c] + y;
      SplitFromAtSep(x[1..], c, y, cur + [x[0]]);
      assert cur + [x[0]] + x[1..] == cur + x;
    }
  }

  /** An unpadded string is its own trim. */
  lemma TrimUnpadded(s: string)
    requires Unpadded(s)
    ensures Trim(s) == s
  {
    assert s[0..|s|] == s && s[..0] == "" && s[|s|..] == "";
    TrimUnique(s, s);
  }

  /** Without an occurrence of the separator, a split gives one piece. */
  lemma {:induction false} SplitFromNoOccurrence(s: string, sep: string, cur: string)
    requires sep != "" && !Occurs(sep, s)
    ensures SplitFrom(s, sep, cur) == [cur + s]
    decreases |s|
  {
    if |s| >= |sep| {
      assert !OccursAt(sep, s, 0);
      assert forall i :: OccursAt(sep, s[1..], i) ==> s[1..][i..i + |sep|] == s[i + 1..i + 1 + |sep|];
      assert forall i :: OccursAt(sep, s[1..], i) ==> OccursAt(sep, s, i + 1);
      SplitFromNoOccurrence(s[1..], sep, cur + [s[0]]);
      assert cur + [s[0]] + s[1..] == cur + s;
    }
  }

  /** A separator cannot occur where its first character is absent. */
  lemma AbsentHead(sep: string, s: string)
    requires sep != "" && sep[0] !in s
    ensures !Occurs(sep, s)
  {
    forall i | 0 <= i && i + |sep| <= |s| ensures !OccursAt(sep, s, i) {
      assert s[i..i + |sep|][0] == s[i];
    }
  }
}

=== FILE: orders.dfy ===
/** The order routes: create with six required fields, update of the status
    alone, delete, and the listing of one user's orders. */
module Orders {
  import opened Common

  /** An order document, holding the body values the handler passes on. */
  datatype Order = Order(
    userID: Option<Json>,
    orderStatus: Option<Json>,
    items: Option<Json>,
    totalPrice: Option<Json>,
    shippingAddress: Option<Json>,
    paymentMethod: Option<Json>,
    couponCode: Option<Json>,
    orderTotal: Option<Json>)

  const MsgRequired :=
    "User ID, items, totalPrice, shippingAddress, paymentMethod, and orderTotal are required."
  const MsgCreated := "Đơn hàng được tạo thành công"
  const MsgStatusRequired := "Yêu cầu trạng thái đơn hàng."
  const MsgNotFound := "Không tìm thấy đơn hàng."
  const MsgUpdated := "Đơn hàng được cập nhật thành công."
  const MsgDeleted := "Đơn hàng đã được xóa thành công."
  const MsgListed := "Orders retrieved successfully."

  /** The six fields the create handler demands; `orderStatus` and
      `couponCode` may be left out. */
  predicate Complete(body: Order) {
    Truthy(body.userID) && Truthy(body.items) && Truthy(body.totalPrice)
      && Truthy(body.shippingAddress) && Truthy(body.paymentMethod) && Truthy(body.orderTotal)
  }

  /** `POST /orders`: the body is stored as it came once the six fields are
      truthy. The answer carries no data. */
  function CreateOrder(store: map<Id, Order>, body: Order, newId: Id): (r: Reply<map<Id, Order>>)
    requires newId !in store
    ensures r.status == Ok <==> Complete(body)
    ensures r.status != Ok ==> r.status == BadRequest && r.message == MsgRequired && r.state == store
    ensures r.status == Ok ==>
      && r.state.Keys == store.Keys + {newId}
      && r.state[newId] == body
      && forall id | id in store :: r.state[id] == store[id]
  {
    if !Complete(body) then Reply(BadRequest, MsgRequired, store)
    else Reply(Ok, MsgCreated, store[newId := body])
  }

  /** `PUT /orders/:id`: a truthy `orderStatus` is required before the order
      is looked up; nothing but the status changes. */
  function UpdateOrder(store: map<Id, Order>, id: Id, orderStatus: Option<Json>): (r: Reply<map<Id, Order>>)
    ensures r.status == BadRequest <==> !Truthy(orderStatus)
    ensures r.status == NotFound <==> Truthy(orderStatus) && id !in store
    ensures r.status in {Ok, BadRequest, NotFound}
    ensures r.status != Ok ==> r.state == store
    ensures r.status == Ok ==>
      && r.state.Keys == store.Keys
      && r.state[id] == store[id].(orderStatus := orderStatus)
      && forall other | other in store && other != id :: r.state[other] == store[other]
  {
    if !Truthy(orderStatus) then Reply(BadRequest, MsgStatusRequired, store)
    else if id !in store then Reply(NotFound, MsgNotFound, store)
    else Reply(Ok, MsgUpdated, store[id := store[id].(orderStatus := orderStatus)])
  }

  /** `DELETE /orders/:id`. */
  function DeleteOrder(store: map<Id, Order>, id: Id): (r: Reply<map<Id, Order>>)
    ensures r.status == NotFound <==> id !in store
    ensures r.status != NotFound ==> r.status == Ok && r.state == store - {id}
    ensures r.status == NotFound ==> r.state == store
  {
    if id !in store then Reply(NotFound, MsgNotFound, store)
    else Reply(Ok, MsgDeleted, store - {id})
  }

  /** `Order.find({ userID })`: the orders whose `userID` is the path's id. */
  function OrdersOfUser(store: map<Id, Order>, userId: Id): (r: Reply<map<Id, Order>>)
    ensures r.status == Ok && r.message == MsgListed
    ensures r.state.Keys <= store.Keys
    ensures forall id :: id in r.state <==> id in store && store[id].userID == Some(JStr(userId))
    ensures forall id | id in r.state :: r.state[id] == store[id]
  {
    Reply(Ok, MsgListed, map id | id in store && store[id].userID == Some(JStr(userId)) :: store[id])
  }

  /** A created order is listed under its user at once. */
  lemma CreatedOrderListed(store: map<Id, Order>, body: Order, newId: Id, userId: Id)
    requires newId !in store && Complete(body) && body.userID == Some(JStr(userId))
    ensures var s := CreateOrder(store, body, newId).state;
      newId in OrdersOfUser(s, userId).state && OrdersOfUser(s, userId).state[newId] == body
  {
  }

  /** Creating an order leaves every other user's listing as it was. */
  lemma CreateLeavesOtherListings(store: map<Id, Order>, body: Order, newId: Id, userId: Id)
    requires newId !in store && body.userID != Some(JStr(userId))
    ensures OrdersOfUser(CreateOrder(store, body, newId).state, userId).state == OrdersOfUser(store, userId).state
  {
  }

  /** A status update moves no order between users' listings. */
  lemma UpdateKeepsListings(store: map<Id, Order>, id: Id, orderStatus: Option<Json>, userId: Id)
    ensures OrdersOfUser(UpdateOrder(store, id, orderStatus).state, userId).state.Keys
         == OrdersOfUser(store, userId).state.Keys
  {
  }

  /** A deleted order leaves its user's listing. */
  lemma DeletedOrderUnlisted(store: map<Id, Order>, id: Id, userId: Id)
    ensures id !in OrdersOfUser(DeleteOrder(store, id).state, userId).state
    ensures OrdersOfUser(DeleteOrder(store, id).state, userId).state.Keys
         == OrdersOfUser(store, userId).state.Keys - {id}
  {
  }

  /** The status update is idempotent. */
  lemma UpdateOrderIdempotent(store: map<Id, Order>, id: Id, orderStatus: Option<Json>)
    ensures var s := UpdateOrder(store, id, orderStatus).state;
      UpdateOrder(s, id, orderStatus).state == s
  {
  }
}

=== FILE: product_images.dfy ===
/** The image list of a product: entries `{image, url}` keyed by slot number
    1..5, one slot per upload field `image1` .. `image5`. */
module ProductImages {
  import opened Common

  const SlotCount: nat := 5

  datatype ImageEntry = ImageEntry(image: int, url: string)

  /** The files of one request, by upload field: index `i` holds the URL of
      the file sent as `image<i+1>`, if any. */
  type Uploads = s: seq<Option<Url>> | |s| == 5 witness [None, None, None, None, None]

  /** The slot numbers present in an image list. */
  function Slots(images: seq<ImageEntry>): set<int> {
    set j | 0 <= j < |images| :: images[j].image
  }

  /** Upload field `image<n>` carries a file. */
  predicate HasFile(uploads: Uploads, n: int) {
    1 <= n <= SlotCount && uploads[n - 1].Some?
  }

  /** Upload field `image<n>` carries the file stored at `url`. */
  predicate FileAt(uploads: Uploads, n: int, url: string) {
    1 <= n <= SlotCount && uploads[n - 1] == Some(url)
  }

  /** The slots that receive a file from `slot` on. */
  function UploadedFrom(uploads: Uploads, slot: int): set<int> {
    set n | slot <= n <= SlotCount && HasFile(uploads, n)
  }

  lemma SlotsAppend(a: seq<ImageEntry>, b: seq<ImageEntry>)
    ensures Slots(a + b) == Slots(a) + Slots(b)
  {
    var ab := a + b;
    forall x | x in Slots(ab) ensures x in Slots(a) + Slots(b) {
      var j :| 0 <= j < |ab| && ab[j].image == x;
      if j < |a| { assert a[j] == ab[j]; } else { assert b[j - |a|] == ab[j]; }
    }
    forall x | x in Slots(a) ensures x in Slots(ab) {
      var j :| 0 <= j < |a| && a[j].image == x;
      assert ab[j] == a[j];
    }
    forall x | x in Slots(b) ensures x in Slots(ab) {
      var j :| 0 <= j < |b| && b[j].image == x;
      assert ab[|a| + j] == b[j];
    }
  }

  lemma SlotsSingle(e: ImageEntry)
    ensures Slots([e]) == {e.image}
  {
    assert [e][0] == e;
  }

  /** The slots that receive a file in this request. */
  function Uploaded(uploads: Uploads): set<int> {
    UploadedFrom(uploads, 1)
  }

  /** No two entries share a slot number. */
  predicate Distinct(images: seq<ImageEntry>) {
    forall j, k | 0 <= j < k < |images| :: images[j].image != images[k].image
  }

  /** Every slot number is one of 1..5. */
  predicate ValidSlots(images: seq<ImageEntry>) {
    forall j | 0 <= j < |images| :: 1 <= images[j].image <= SlotCount
  }

  /** The list built on create, from slot `i + 1` on: one entry per uploaded
      field, in field order. */
  function ImagesFrom(uploads: Uploads, i: nat): seq<ImageEntry>
    requires i <= SlotCount
    decreases SlotCount - i
  {
    if i == SlotCount then []
    else
      var rest := ImagesFrom(uploads, i + 1);
      match uploads[i]
      case None => rest
      case Some(url) => [ImageEntry(i + 1, url)] + rest
  }

  /** The list from slot `i + 1` on has at most one entry per remaining
      slot, in increasing slot order, each carrying the URL of its field,
      and exactly the uploaded slots past `i`. */
  lemma {:induction false} ImagesFromFacts(uploads: Uploads, i: nat)
    requires i <= SlotCount
    ensures var r := ImagesFrom(uploads, i);
      && |r| <= SlotCount - i
      && (forall j | 0 <= j < |r| :: i < r[j].image && FileAt(uploads, r[j].image, r[j].url))
      && (forall j, k | 0 <= j < k < |r| :: r[j].image < r[k].image)
      && Slots(r) == UploadedFrom(uploads, i + 1)
    decreases SlotCount - i
  {
    if i < SlotCount {
      var rest := ImagesFrom(uploads, i + 1);
      ImagesFromFacts(uploads, i + 1);
      UploadedStep(uploads, i + 1);
      match uploads[i]
      case None =>
      case Some(url) =>
        var r := ConsImage(ImageEntry(i + 1, url), rest);
        assert ImagesFrom(uploads, i) == r;
    }
  }

  lemma UploadedStep(uploads: Uploads, n: int)
    requires 1 <= n <= SlotCount
    ensures UploadedFrom(uploads, n) ==
      (if HasFile(uploads, n) then {n} else {}) + UploadedFrom(uploads, n + 1)
  {
  }

  function ConsImage(e: ImageEntry, rest: seq<ImageEntry>): (r: seq<ImageEntry>)
    ensures |r| == |rest| + 1 && r[0] == e
    ensures forall j | 1 <= j < |r| :: r[j] == rest[j - 1]
    ensures Slots(r) == {e.image} + Slots(rest)
  {
    SlotsAppend([e], rest);
    SlotsSingle(e);
    [e] + rest
  }

  /** The image list of a new product. */
  function CreateImages(uploads: Uploads): (r: seq<ImageEntry>)
    ensures |r| <= SlotCount
    ensures ValidSlots(r) && Distinct(r)
    ensures forall j, k | 0 <= j < k < |r| :: r[j].image < r[k].image
    ensures forall j | 0 <= j < |r| :: FileAt(uploads, r[j].image, r[j].url)
    ensures Slots(r) == Uploaded(uploads)
  {
    ImagesFromFacts(uploads, 0);
    ImagesFrom(uploads, 0)
  }

  /** The index of the first entry for `slot` from index `j` on, as
      `images.find(img => img.image === slot)` sees it. */
  function FindFrom(images: seq<ImageEntry>, slot: int, j: nat): (r: Option<nat>)
    requires j <= |images|
    ensures r.Some? ==> j <= r.value < |images| && images[r.value].image == slot
    ensures r.Some? ==> forall k | j <= k < r.value :: images[k].image != slot
    ensures r.None? ==> forall k | j <= k < |images| :: images[k].image != slot
    decreases |images| - j
  {
    if j == |images| then None
    else if images[j].image == slot then Some(j)
    else FindFrom(images, slot, j + 1)
  }

  function Find(images: seq<ImageEntry>, slot: int): (r: Option<nat>)
    ensures r.Some? ==> r.value < |images| && images[r.value].image == slot
    ensures r.Some? ==> forall k | 0 <= k < r.value :: images[k].image != slot
  {
    FindFrom(images, slot, 0)
  }

  /** The search finds nothing exactly when no entry has the slot. */
  lemma FindAbsent(images: seq<ImageEntry>, slot: int)
    ensures Find(images, slot).None? <==> slot !in Slots(images)
  {
    if slot in Slots(images) {
      var j :| 0 <= j < |images| && images[j].image == slot;
    }
  }

  /** The URL a reader finds first for `slot`. */
  function UrlOf(images: seq<ImageEntry>, slot: int): Option<string> {
    match Find(images, slot)
    case Some(j) => Some(images[j].url)
    case None => None
  }

  /** Entry `j` is the first one for its slot. */
  predicate FirstForSlot(images: seq<ImageEntry>, j: int)
    requires 0 <= j < |images|
  {
    forall k | 0 <= k < j :: images[k].image != images[j].image
  }

  /** Storing one uploaded file: the first entry for `slot` gets the new URL,
      or a new entry is appended when the slot is empty. `UpsertUrls` and
      `UpsertShape` state what a reader then finds. */
  function Upsert(images: seq<ImageEntry>, slot: int, url: string): (r: seq<ImageEntry>)
    ensures |images| <= |r| <= |images| + 1
  {
    match Find(images, slot)
    case Some(j) => images[j := ImageEntry(slot, url)]
    case None => images + [ImageEntry(slot, url)]
  }

  /** The reader finds the new URL for `slot` and the old one for every
      other slot. */
  lemma UpsertUrls(images: seq<ImageEntry>, slot: int, url: string)
    ensures UrlOf(Upsert(images, slot, url), slot) == Some(url)
    ensures forall n | n != slot :: UrlOf(Upsert(images, slot, url), n) == UrlOf(images, n)
  {
    match Find(images, slot)
    case Some(j) =>
      var r := images[j := ImageEntry(slot, url)];
      assert Upsert(images, slot, url) == r;
      assert Slots(r) == Slots(images) by {
        assert forall k | 0 <= k < |r| :: r[k].image == images[k].image;
      }
      assert Find(r, slot) == Some(j) by { FindSame(images, r, slot); }
      forall n | n != slot ensures UrlOf(r, n) == UrlOf(images, n) {
        FindSame(images, r, n);
      }
    case None =>
      var r := images + [ImageEntry(slot, url)];
      assert Upsert(images, slot, url) == r;
      SlotsAppend(images, [ImageEntry(slot, url)]);
      SlotsSingle(ImageEntry(slot, url));
      assert Find(r, slot) == Some(|images|) by {
        assert forall k | 0 <= k < |images| :: r[k] == images[k];
      }
      forall n | n != slot ensures UrlOf(r, n) == UrlOf(images, n) {
        FindAppend(images, slot, url, n);
      }
  }

  /** Every entry keeps its slot, only the first entry for `slot` may change,
      an entry is appended only for a slot the list lacks, and no duplicate
      slot appears. */
  lemma UpsertShape(images: seq<ImageEntry>, slot: int, url: string)
    ensures var r := Upsert(images, slot, url);
      && Slots(r) == Slots(images) + {slot}
      && (forall j | 0 <= j < |images| :: r[j].image == images[j].image)
      && (forall j | 0 <= j < |images| && (images[j].image != slot || !FirstForSlot(images, j)) :: r[j] == images[j])
      && (|r| == |images| + 1 ==> slot !in Slots(images) && r[|images|] == ImageEntry(slot, url))
      && (Distinct(images) ==> Distinct(r))
  {
    match Find(images, slot)
    case Some(j) =>
      var r := images[j := ImageEntry(slot, url)];
      assert Upsert(images, slot, url) == r;
      assert Slots(r) == Slots(images) by {
        assert forall k | 0 <= k < |r| :: r[k].image == images[k].image;
      }
    case None =>
      var r := images + [ImageEntry(slot, url)];
      assert Upsert(images, slot, url) == r;
      SlotsAppend(images, [ImageEntry(slot, url)]);
      SlotsSingle(ImageEntry(slot, url));
  }

  /** Lists with the same slot at every index find the same index. */
  lemma FindSame(a: seq<ImageEntry>, b: seq<ImageEntry>, slot: int)
    requires |a| == |b|
    requires forall k | 0 <= k < |a| :: a[k].image == b[k].image
    ensures Find(a, slot) == Find(b, slot)
    ensures Find(a, slot).Some? && b[Find(a, slot).value] == a[Find(a, slot).value] ==> UrlOf(a, slot) == UrlOf(b, slot)
  {
    assert Slots(a) == Slots(b);
    var fa, fb := Find(a, slot), Find(b, slot);
    if fa.Some? && fb.Some? {
      assert !(fa.value < fb.value) && !(fb.value < fa.value);
    }
  }

  /** Appending an entry for another slot does not change what a slot finds. */
  lemma FindAppend(images: seq<ImageEntry>, slot: int, url: string, n: int)
    requires n != slot
    ensures Find(images + [ImageEntry(slot, url)], n) == Find(images, n)
    ensures UrlOf(images + [ImageEntry(slot, url)], n) == UrlOf(images, n)
  {
    var r := images + [ImageEntry(slot, url)];
    assert forall k | 0 <= k < |images| :: r[k] == images[k];
    SlotsAppend(images, [ImageEntry(slot, url)]);
    SlotsSingle(ImageEntry(slot, url));
    var fa, fb := Find(images, n), Find(r, n);
    if fa.Some? && fb.Some? {
      assert !(fa.value < fb.value) && !(fb.value < fa.value);
    }
  }

  /** Entry `j` keeps its first-for-slot status in a list that extends the
      slots of `a` index by index. */
  lemma FirstForSlotKept(a: seq<ImageEntry>, b: seq<ImageEntry>, j: int)
    requires |a| <= |b| && 0 <= j < |a|
    requires forall k | 0 <= k < |a| :: b[k].image == a[k].image
    ensures FirstForSlot(a, j) == FirstForSlot(b, j)
  {
  }

  /** Storing the uploads of fields `image<i+1>` .. `image5` in field order. */
  function ApplyFrom(images: seq<ImageEntry>, uploads: Uploads, i: nat): (r: seq<ImageEntry>)
    requires i <= SlotCount
    ensures |images| <= |r|
    decreases SlotCount - i
  {
    if i == SlotCount then images
    else
      match uploads[i]
      case None => ApplyFrom(images, uploads, i + 1)
      case Some(url) => ApplyFrom(Upsert(images, i + 1, url), uploads, i + 1)
  }

  /** Storing the later fields adds exactly their slots and keeps the slot of
      every entry. */
  lemma {:induction false} ApplyFromShape(images: seq<ImageEntry>, uploads: Uploads, i: nat)
    requires i <= SlotCount
    ensures var r := ApplyFrom(images, uploads, i);
      && Slots(r) == Slots(images) + UploadedFrom(uploads, i + 1)
      && (forall j | 0 <= j < |images| :: r[j].image == images[j].image)
    decreases SlotCount - i
  {
    if i < SlotCount {
      UploadedStep(uploads, i + 1);
      match uploads[i]
      case None =>
        ApplyFromShape(images, uploads, i + 1);
      case Some(url) =>
        UpsertShape(images, i + 1, url);
        ApplyFromShape(Upsert(images, i + 1, url), uploads, i + 1);
    }
  }

  /** One field without a file leaves the list to the later fields. */
  lemma ApplyFromNone(images: seq<ImageEntry>, uploads: Uploads, i: nat)
    requires i < SlotCount && uploads[i].None?
    ensures ApplyFrom(images, uploads, i) == ApplyFrom(images, uploads, i + 1)
  {
  }

  /** One field with a file stores it, then the later fields follow. */
  lemma ApplyFromSome(images: seq<ImageEntry>, uploads: Uploads, i: nat)
    requires i < SlotCount && uploads[i].Some?
    ensures ApplyFrom(images, uploads, i) == ApplyFrom(Upsert(images, i + 1, uploads[i].value), uploads, i + 1)
  {
  }

  /** A slot past `i` whose field carries a file ends with that file's URL. */
  lemma {:induction false} ApplyFromUploadedUrl(images: seq<ImageEntry>, uploads: Uploads, i: nat, n: int)
    requires i <= SlotCount && i < n && HasFile(uploads, n)
    ensures UrlOf(ApplyFrom(images, uploads, i), n) == uploads[n - 1]
    decreases SlotCount - i
  {
    if uploads[i].None? {
      ApplyFromNone(images, uploads, i);
      ApplyFromUploadedUrl(images, uploads, i + 1, n);
    } else {
      ApplyFromSome(images, uploads, i);
      var next := Upsert(images, i + 1, uploads[i].value);
      if n == i + 1 {
        UpsertUrls(images, i + 1, uploads[i].value);
        ApplyFromOtherUrl(next, uploads, i + 1, n);
      } else {
        ApplyFromUploadedUrl(next, uploads, i + 1, n);
      }
    }
  }

  /** Any other slot keeps the URL it had. */
  lemma {:induction false} ApplyFromOtherUrl(images: seq<ImageEntry>, uploads: Uploads, i: nat, n: int)
    requires i <= SlotCount && !(i < n && HasFile(uploads, n))
    ensures UrlOf(ApplyFrom(images, uploads, i), n) == UrlOf(images, n)
    decreases SlotCount - i
  {
    if i < SlotCount {
      if uploads[i].None? {
        ApplyFromNone(images, uploads, i);
        ApplyFromOtherUrl(images, uploads, i + 1, n);
      } else {
        ApplyFromSome(images, uploads, i);
        UpsertUrls(images, i + 1, uploads[i].value);
        ApplyFromOtherUrl(Upsert(images, i + 1, uploads[i].value), uploads, i + 1, n);
      }
    }
  }

  lemma {:induction false} ApplyFromKeeps(images: seq<ImageEntry>, uploads: Uploads, i: nat)
    requires i <= SlotCount
    ensures var r := ApplyFrom(images, uploads, i);
      forall j | 0 <= j < |images| && (images[j].image !in UploadedFrom(uploads, i + 1) || !FirstForSlot(images, j)) ::
        r[j] == images[j]
    decreases SlotCount - i
  {
    if i < SlotCount {
      UploadedStep(uploads, i + 1);
      match uploads[i]
      case None => ApplyFromKeeps(images, uploads, i + 1);
      case Some(url) =>
        var next := Upsert(images, i + 1, url);
        UpsertShape(images, i + 1, url);
        ApplyFromKeeps(next, uploads, i + 1);
        forall j | 0 <= j < |images| ensures FirstForSlot(images, j) == FirstForSlot(next, j) {
          FirstForSlotKept(images, next, j);
        }
    }
  }

  /** The entries past the end of `images` in `r`: new slots, all uploaded. */
  ghost predicate AppendsOnly(images: seq<ImageEntry>, r: seq<ImageEntry>, uploaded: set<int>)
    requires |images| <= |r|
  {
    forall j | |images| <= j < |r| :: r[j].image in uploaded && r[j].image !in Slots(images)
  }

  lemma AppendsCompose(images: seq<ImageEntry>, next: seq<ImageEntry>, r: seq<ImageEntry>, slot: int, url: string, later: set<int>, all: set<int>)
    requires next == Upsert(images, slot, url)
    requires |next| <= |r| && AppendsOnly(next, r, later)
    requires forall j | 0 <= j < |next| :: r[j].image == next[j].image
    requires later <= all && slot in all
    ensures AppendsOnly(images, r, all)
  {
    UpsertShape(images, slot, url);
    assert Slots(images) <= Slots(next);
    forall j | |images| <= j < |r| ensures r[j].image in all && r[j].image !in Slots(images) {
      if j < |next| {
        assert r[j].image == next[j].image;
      }
    }
  }

  lemma {:induction false} ApplyFromAppends(images: seq<ImageEntry>, uploads: Uploads, i: nat)
    requires i <= SlotCount
    ensures AppendsOnly(images, ApplyFrom(images, uploads, i), UploadedFrom(uploads, i + 1))
    decreases SlotCount - i
  {
    if i < SlotCount {
      UploadedStep(uploads, i + 1);
      match uploads[i]
      case None => ApplyFromAppends(images, uploads, i + 1);
      case Some(url) =>
        var next := Upsert(images, i + 1, url);
        ApplyFromAppends(next, uploads, i + 1);
        ApplyFromShape(next, uploads, i + 1);
        AppendsCompose(images, next, ApplyFrom(next, uploads, i + 1), i + 1, url,
          UploadedFrom(uploads, i + 2), UploadedFrom(uploads, i + 1));
    }
  }

  lemma {:induction false} ApplyFromDistinct(images: seq<ImageEntry>, uploads: Uploads, i: nat)
    requires i <= SlotCount
    ensures Distinct(images) ==> Distinct(ApplyFrom(images, uploads, i))
    decreases SlotCount - i
  {
    if i < SlotCount {
      match uploads[i]
      case None => ApplyFromDistinct(images, uploads, i + 1);
      case Some(url) =>
        UpsertShape(images, i + 1, url);
        ApplyFromDistinct(Upsert(images, i + 1, url), uploads, i + 1);
    }
  }

  /** The update handler's image step: each uploaded field `image<n>` sets the
      URL of the first entry for slot `n`, or appends `{image: n, url}`. */
  function ApplyUploads(images: seq<ImageEntry>, uploads: Uploads): (r: seq<ImageEntry>)
    ensures Slots(r) == Slots(images) + Uploaded(uploads)
    ensures forall n | HasFile(uploads, n) :: UrlOf(r, n) == uploads[n - 1]
    ensures forall n | !HasFile(uploads, n) :: UrlOf(r, n) == UrlOf(images, n)
    ensures |images| <= |r|
    ensures forall j | 0 <= j < |images| :: r[j].image == images[j].image
    ensures forall j | 0 <= j < |images| && (images[j].image !in Uploaded(uploads) || !FirstForSlot(images, j)) ::
      r[j] == images[j]
    ensures forall j | |images| <= j < |r| :: r[j].image in Uploaded(uploads) && r[j].image !in Slots(images)
    ensures Distinct(images) ==> Distinct(r)
    ensures ValidSlots(images) ==> ValidSlots(r)
  {
    forall n | HasFile(uploads, n) ensures UrlOf(ApplyFrom(images, uploads, 0), n) == uploads[n - 1] {
      ApplyFromUploadedUrl(images, uploads, 0, n);
    }
    forall n | !HasFile(uploads, n) ensures UrlOf(ApplyFrom(images, uploads, 0), n) == UrlOf(images, n) {
      ApplyFromOtherUrl(images, uploads, 0, n);
    }
    ApplyFromShape(images, uploads, 0);
    ApplyFromKeeps(images, uploads, 0);
    ApplyFromAppends(images, uploads, 0);
    ApplyFromDistinct(images, uploads, 0);
    ApplyFrom(images, uploads, 0)
  }

  lemma AppendAssoc(a: seq<ImageEntry>, b: seq<ImageEntry>, c: seq<ImageEntry>)
    ensures a + b + c == a + (b + c)
  {
  }

  lemma UpsertFresh(acc: seq<ImageEntry>, slot: int, url: string)
    requires forall j | 0 <= j < |acc| :: acc[j].image < slot
    ensures Upsert(acc, slot, url) == acc + [ImageEntry(slot, url)]
  {
    assert slot !in Slots(acc);
    UpsertShape(acc, slot, url);
  }

  lemma {:induction false} ApplyFromFresh(acc: seq<ImageEntry>, uploads: Uploads, i: nat)
    requires i <= SlotCount
    requires forall j | 0 <= j < |acc| :: acc[j].image <= i
    ensures ApplyFrom(acc, uploads, i) == acc + ImagesFrom(uploads, i)
    decreases SlotCount - i
  {
    if i < SlotCount {
      match uploads[i]
      case None =>
        ApplyFromFresh(acc, uploads, i + 1);
      case Some(url) =>
        var e := ImageEntry(i + 1, url);
        UpsertFresh(acc, i + 1, url);
        var next := acc + [e];
        assert forall j | 0 <= j < |next| :: next[j].image <= i + 1 by {
          assert forall j | 0 <= j < |acc| :: next[j] == acc[j];
        }
        ApplyFromFresh(next, uploads, i + 1);
        assert ApplyFrom(acc, uploads, i) == ApplyFrom(next, uploads, i + 1);
        assert ImagesFrom(uploads, i) == [e] + ImagesFrom(uploads, i + 1);
        AppendAssoc(acc, [e], ImagesFrom(uploads, i + 1));
    }
  }

  /** Creating a product's image list is storing the uploads into an empty
      list. */
  lemma CreateIsUpsertIntoEmpty(uploads: Uploads)
    ensures CreateImages(uploads) == ApplyUploads([], uploads)
  {
    ApplyFromFresh([], uploads, 0);
    assert [] + ImagesFrom(uploads, 0) == ImagesFrom(uploads, 0);
  }

  lemma {:induction false} ApplyFromSettled(images: seq<ImageEntry>, uploads: Uploads, i: nat)
    requires i <= SlotCount
    requires forall n | i < n && HasFile(uploads, n) :: UrlOf(images, n) == uploads[n - 1]
    ensures ApplyFrom(images, uploads, i) == images
    decreases SlotCount - i
  {
    if i < SlotCount {
      match uploads[i]
      case None =>
        ApplyFromSettled(images, uploads, i + 1);
      case Some(url) =>
        assert HasFile(uploads, i + 1);
        var j := Find(images, i + 1).value;
        assert images[j] == ImageEntry(i + 1, url);
        assert Upsert(images, i + 1, url) == images;
        ApplyFromSettled(images, uploads, i + 1);
    }
  }

  /** Sending the same files twice stores them once: the image step is
      idempotent. */
  lemma ApplyUploadsIdempotent(images: seq<ImageEntry>, uploads: Uploads)
    ensures ApplyUploads(ApplyUploads(images, uploads), uploads) == ApplyUploads(images, uploads)
  {
    ApplyFromSettled(ApplyUploads(images, uploads), uploads, 0);
  }

  /** Without uploaded files the image list is left as it is. */
  lemma ApplyUploadsNothing(images: seq<ImageEntry>, uploads: Uploads)
    requires Uploaded(uploads) == {}
    ensures ApplyUploads(images, uploads) == images
  {
    assert forall n | 1 <= n <= SlotCount :: HasFile(uploads, n) ==> n in Uploaded(uploads);
    ApplyFromSettled(images, uploads, 0);
  }
}

=== FILE: products.dfy ===
/** The product routes: create with its required-field, offer-price and
    duplicate-name checks, update as a field-wise merge, delete. */
module Products {
  import opened Common
  import opened JsString
  import opened ProductImages
  import Specifications

  /** A numeric form field as sent (multipart fields are strings), with what
      `parseFloat` reads from its text: `None` stands for `NaN`. */
  datatype NumText = NumText(text: string, reading: Option<real>)

  /** A form field holding JSON text, with what `JSON.parse` makes of it. */
  datatype JsonText = JsonText(text: string, parsed: JsonParse)

  datatype JsonParse = Malformed | Parsed(value: Json)

  /** The stored `proVariantId`: the raw text given on create, or the array
      an update parsed. */
  datatype Variants = NoVariants | VariantText(text: string) | VariantList(items: seq<Json>)

  /** A product document (model/product.js). */
  datatype Product = Product(
    name: string,
    description: Option<string>,
    quantity: NumText,
    price: NumText,
    offerPrice: Option<NumText>,
    proCategoryId: Id,
    proSubCategoryId: Id,
    proBrandId: Option<Id>,
    proVariantTypeId: Option<Id>,
    proVariantId: Variants,
    images: seq<ImageEntry>,
    specifications: map<string, string>)

  /** The text fields of a create or update request. */
  datatype ProductForm = ProductForm(
    name: Option<string>,
    description: Option<string>,
    quantity: Option<NumText>,
    price: Option<NumText>,
    offerPrice: Option<NumText>,
    proCategoryId: Option<string>,
    proSubCategoryId: Option<string>,
    proBrandId: Option<string>,
    proVariantTypeId: Option<string>,
    proVariantId: Option<JsonText>,
    specifications: Option<string>)

  const MsgRequired := "Required fields are missing."
  const MsgOffer := "Offer price cannot exceed the regular price."
  const MsgNameExists := "Product name already exists."
  const MsgCreated := "Product created successfully."
  const MsgNotFound := "Product not found."
  const MsgVariantFormat := "Invalid format for proVariantId."
  const MsgUpdated := "Product updated successfully."
  const MsgDeleted := "Product deleted successfully."

  /** Truthiness of a numeric field: its text is non-empty. */
  predicate NumFilled(f: Option<NumText>) {
    f.Some? && f.value.text != ""
  }

  /** `parseFloat(f)`: `NaN` for an absent field and for the empty string. */
  function ParseFloat(f: Option<NumText>): (r: Option<real>)
    ensures r.Some? ==> NumFilled(f)
  {
    if NumFilled(f) then f.value.reading else None
  }

  /** `offerPrice && parseFloat(offerPrice) > parseFloat(price)`; a comparison
      with `NaN` is false. */
  predicate OfferExceeds(offer: Option<NumText>, price: Option<NumText>) {
    NumFilled(offer) && ParseFloat(offer).Some? && ParseFloat(price).Some?
      && ParseFloat(offer).value > ParseFloat(price).value
  }

  /** One of name, quantity, price, proCategoryId, proSubCategoryId is falsy. */
  predicate MissingRequired(form: ProductForm) {
    !Filled(form.name) || !NumFilled(form.quantity) || !NumFilled(form.price)
      || !Filled(form.proCategoryId) || !Filled(form.proSubCategoryId)
  }

  /** `Product.findOne({ name })` finds a product. The schema's `trim`
      setter applies to the query filter as it does to stored names, so the
      sent name is compared trimmed. */
  predicate NameTaken(store: map<Id, Product>, name: string) {
    exists id | id in store :: store[id].name == Trim(name)
  }

  /** No two stored products share a name (the schema's unique index). */
  ghost predicate UniqueNames(store: map<Id, Product>) {
    forall a, b | a in store && b in store && store[a].name == store[b].name :: a == b
  }

  /** The create request passes all three checks. */
  predicate CreateAccepted(store: map<Id, Product>, form: ProductForm) {
    !MissingRequired(form) && !OfferExceeds(form.offerPrice, form.price)
      && !NameTaken(store, form.name.value)
  }

  /** The new document: fields as given, name and description trimmed by the
      schema's setters, specifications parsed, one image per uploaded
      field. */
  function NewProduct(form: ProductForm, uploads: Uploads): (p: Product)
    requires !MissingRequired(form) && form.specifications.Some?
    ensures p.name == Trim(form.name.value)
    ensures form.description.None? ==> p.description.None?
    ensures form.description.Some? ==> p.description == Some(Trim(form.description.value))
    ensures p.price == form.price.value && p.offerPrice == form.offerPrice && p.quantity == form.quantity.value
    ensures p.proCategoryId == form.proCategoryId.value && p.proSubCategoryId == form.proSubCategoryId.value
    ensures p.proBrandId == form.proBrandId && p.proVariantTypeId == form.proVariantTypeId
    ensures form.proVariantId.None? ==> p.proVariantId == NoVariants
    ensures form.proVariantId.Some? ==> p.proVariantId == VariantText(form.proVariantId.value.text)
    ensures p.specifications == Specifications.ParseSpecifications(form.specifications.value)
    ensures p.images == CreateImages(uploads)
    ensures |p.images| <= SlotCount && Slots(p.images) == Uploaded(uploads) && Distinct(p.images) && ValidSlots(p.images)
    ensures forall j | 0 <= j < |p.images| :: FileAt(uploads, p.images[j].image, p.images[j].url)
  {
    Product(
      Trim(form.name.value),
      match form.description case None => None case Some(d) => Some(Trim(d)),
      form.quantity.value, form.price.value, form.offerPrice,
      form.proCategoryId.value, form.proSubCategoryId.value, form.proBrandId, form.proVariantTypeId,
      match form.proVariantId case None => NoVariants case Some(v) => VariantText(v.text),
      CreateImages(uploads),
      Specifications.ParseSpecifications(form.specifications.value))
  }

  /** A request that passes the three checks is never answered when it has
      no specifications text, since the parser throws on `undefined`, or when
      its name is blank, since the trimmed name then fails the schema's
      `required` validator. Either error escapes the upload callback. */
  predicate CreateUnanswered(form: ProductForm)
    requires !MissingRequired(form)
  {
    form.specifications.None? || Trim(form.name.value) == ""
  }

  /** `POST /products`. The checks run in order: required fields, then the
      offer price, then the name; then the specifications are parsed and the
      document is saved. */
  function CreateProduct(store: map<Id, Product>, form: ProductForm, uploads: Uploads, newId: Id)
    : (r: Reply<map<Id, Product>>)
    requires newId !in store
    ensures r.status in {Ok, BadRequest, NoAnswer}
    ensures r.message == MsgRequired <==> MissingRequired(form)
    ensures r.message == MsgOffer <==> !MissingRequired(form) && OfferExceeds(form.offerPrice, form.price)
    ensures r.message == MsgNameExists <==>
      !MissingRequired(form) && !OfferExceeds(form.offerPrice, form.price) && NameTaken(store, form.name.value)
    ensures r.status == NoAnswer <==> CreateAccepted(store, form) && CreateUnanswered(form)
    ensures r.status == NoAnswer ==> r.message == Silence
    ensures r.status == Ok <==> CreateAccepted(store, form) && !CreateUnanswered(form)
    ensures r.status != Ok ==> r.state == store
    ensures r.status == Ok ==> r.state == store[newId := NewProduct(form, uploads)]
  {
    if MissingRequired(form) then Reply(BadRequest, MsgRequired, store)
    else if OfferExceeds(form.offerPrice, form.price) then Reply(BadRequest, MsgOffer, store)
    else if NameTaken(store, form.name.value) then Reply(BadRequest, MsgNameExists, store)
    else if CreateUnanswered(form) then Reply(NoAnswer, Silence, store)
    else Reply(Ok, MsgCreated, store[newId := NewProduct(form, uploads)])
  }

  /** Adding a product under a fresh id keeps names unique when no stored
      product has its name. */
  lemma InsertKeepsUniqueNames(store: map<Id, Product>, newId: Id, p: Product)
    requires UniqueNames(store) && newId !in store
    requires forall id | id in store :: store[id].name != p.name
    ensures UniqueNames(store[newId := p])
  {
  }

  /** A create never leaves two products with one name: the trimmed name it
      stores is one no stored product has. */
  lemma CreateKeepsUniqueNames(store: map<Id, Product>, form: ProductForm, uploads: Uploads, newId: Id)
    requires newId !in store && UniqueNames(store)
    ensures UniqueNames(CreateProduct(store, form, uploads, newId).state)
  {
    var r := CreateProduct(store, form, uploads, newId);
    if r.status == Ok {
      var name := Trim(form.name.value);
      assert !NameTaken(store, form.name.value);
      assert forall id | id in store :: store[id].name != name;
      var p := NewProduct(form, uploads);
      assert p.name == name;
      InsertKeepsUniqueNames(store, newId, p);
    }
  }

  /** `name?.trim() || previous`: a name that is blank after trimming keeps the old
      one. */
  function KeepOrTrim(f: Option<string>, prev: string): (r: string)
    ensures f.Some? && Trim(f.value) != "" ==> r == Trim(f.value)
    ensures !(f.Some? && Trim(f.value) != "") ==> r == prev
  {
    if f.Some? && Trim(f.value) != "" then Trim(f.value) else prev
  }

  /** `field || previous` for a text field. */
  function KeepOrTake(f: Option<string>, prev: string): string {
    if Filled(f) then f.value else prev
  }

  /** The parsed `proVariantId` text is not JSON: the update is refused. */
  predicate VariantMalformed(f: Option<JsonText>) {
    f.Some? && f.value.text != "" && f.value.parsed.Malformed?
  }

  /** `proVariantId` is truthy and `JSON.parse` makes an array of it. */
  predicate ParsesToArray(f: Option<JsonText>) {
    f.Some? && f.value.text != "" && f.value.parsed.Parsed? && f.value.parsed.value.JArray?
  }

  /** Only an array replaces the stored variants. */
  function MergeVariants(f: Option<JsonText>, prev: Variants): Variants {
    if ParsesToArray(f) then VariantList(f.value.parsed.value.items) else prev
  }

  /** The update handler's assignments to the loaded document, in the source's
      order: text fields merged, `proVariantTypeId` of `"null"` ignored,
      variants replaced by an array only, specifications re-parsed when
      given, images upserted. */
  function Merge(p: Product, form: ProductForm, uploads: Uploads): Product
  {
    var description :=
      if form.description.Some? && Trim(form.description.value) != ""
      then Some(Trim(form.description.value)) else p.description;
    Product(
      KeepOrTrim(form.name, p.name),
      description,
      if form.quantity.Some? then form.quantity.value else p.quantity,
      if NumFilled(form.price) then form.price.value else p.price,
      if NumFilled(form.offerPrice) then form.offerPrice else p.offerPrice,
      KeepOrTake(form.proCategoryId, p.proCategoryId),
      KeepOrTake(form.proSubCategoryId, p.proSubCategoryId),
      if Filled(form.proBrandId) then form.proBrandId else p.proBrandId,
      if Filled(form.proVariantTypeId) && form.proVariantTypeId.value != "null"
      then form.proVariantTypeId else p.proVariantTypeId,
      MergeVariants(form.proVariantId, p.proVariantId),
      ApplyUploads(p.images, uploads),
      if Filled(form.specifications) then Specifications.ParseSpecifications(form.specifications.value)
      else p.specifications)
  }

  /** Another stored product already has this name. */
  predicate NameTakenByOther(store: map<Id, Product>, id: Id, name: string) {
    exists other | other in store && other != id :: store[other].name == name
  }

  /** Saving the merged document fails: its name is another product's, which
      breaks the unique index, or its quantity is the empty text, which
      casts to `null` and fails the `required` validator. */
  predicate SaveRefused(store: map<Id, Product>, id: Id, q: Product) {
    NameTakenByOther(store, id, q.name) || q.quantity.text == ""
  }

  /** `PUT /products/:id`: 404 for an unknown id, then the offer check against
      the submitted price only, then the merge, refused if `proVariantId` is
      not JSON. A save that fails is never answered: its rejection escapes the
      upload callback. */
  function UpdateProduct(store: map<Id, Product>, id: Id, form: ProductForm, uploads: Uploads)
    : (r: Reply<map<Id, Product>>)
    ensures r.status == NotFound <==> id !in store
    ensures r.message == MsgOffer <==> id in store && OfferExceeds(form.offerPrice, form.price)
    ensures r.message == MsgVariantFormat <==>
      id in store && !OfferExceeds(form.offerPrice, form.price) && VariantMalformed(form.proVariantId)
    ensures r.status == BadRequest <==> r.message == MsgOffer || r.message == MsgVariantFormat
    ensures r.status == NoAnswer <==>
      && id in store && !OfferExceeds(form.offerPrice, form.price) && !VariantMalformed(form.proVariantId)
      && SaveRefused(store, id, Merge(store[id], form, uploads))
    ensures r.status == NoAnswer ==> r.message == Silence
    ensures r.status in {Ok, NotFound, BadRequest, NoAnswer}
    ensures r.status != Ok ==> r.state == store
    ensures r.status == Ok ==>
      && r.state.Keys == store.Keys
      && (forall other | other in store && other != id :: r.state[other] == store[other])
      && r.state[id] == Merge(store[id], form, uploads)
  {
    if id !in store then Reply(NotFound, MsgNotFound, store)
    else if OfferExceeds(form.offerPrice, form.price) then Reply(BadRequest, MsgOffer, store)
    else if VariantMalformed(form.proVariantId) then Reply(BadRequest, MsgVariantFormat, store)
    else
      var q := Merge(store[id], form, uploads);
      if SaveRefused(store, id, q) then Reply(NoAnswer, Silence, store)
      else Reply(Ok, MsgUpdated, store[id := q])
  }

  /** An update never leaves two products with one name. */
  lemma UpdateKeepsUniqueNames(store: map<Id, Product>, id: Id, form: ProductForm, uploads: Uploads)
    requires UniqueNames(store)
    ensures UniqueNames(UpdateProduct(store, id, form, uploads).state)
  {
    var r := UpdateProduct(store, id, form, uploads);
    if r.status == Ok {
      var q := Merge(store[id], form, uploads);
      assert !SaveRefused(store, id, q);
      assert r.state == store[id := q];
    }
  }

  /** `DELETE /products/:id`. */
  function DeleteProduct(store: map<Id, Product>, id: Id): (r: Reply<map<Id, Product>>)
    ensures r.status == NotFound <==> id !in store
    ensures r.status != NotFound ==> r.status == Ok
    ensures r.status == NotFound ==> r.state == store
    ensures r.status == Ok ==>
      && r.state.Keys == store.Keys - {id}
      && forall other | other in r.state :: r.state[other] == store[other]
  {
    if id !in store then Reply(NotFound, MsgNotFound, store)
    else Reply(Ok, MsgDeleted, store - {id})
  }

  /** Deleting a product keeps names unique. */
  lemma DeleteKeepsUniqueNames(store: map<Id, Product>, id: Id)
    requires UniqueNames(store)
    ensures UniqueNames(DeleteProduct(store, id).state)
  {
  }

  /** A name that differs from a stored one only by surrounding whitespace is
      taken: the create is refused. */
  lemma PaddedNameRefused(store: map<Id, Product>, id: Id, newId: Id, form: ProductForm, uploads: Uploads)
    requires newId !in store && id in store && Unpadded(store[id].name)
    requires !MissingRequired(form) && !OfferExceeds(form.offerPrice, form.price)
    requires form.name == Some(" " + store[id].name)
    ensures CreateProduct(store, form, uploads, newId).message == MsgNameExists
  {
    var n := store[id].name;
    var s := " " + n;
    assert s[1..1 + |n|] == n && s[..1] == " " && s[1 + |n|..] == "";
    assert PaddedBy(s, n);
    TrimUnique(s, n);
  }

  /** Renaming a product to the name another product holds, such as `B`
      for `x` in a store of `x: A` and `y: B`, is never answered, and the
      store keeps both names. */
  lemma RenameToTakenNameUnanswered(store: map<Id, Product>, id: Id, other: Id, form: ProductForm, uploads: Uploads)
    requires id in store && other in store && other != id && store[other].name != ""
    requires !OfferExceeds(form.offerPrice, form.price) && !VariantMalformed(form.proVariantId)
    requires form.name.Some? && Trim(form.name.value) == store[other].name
    ensures var r := UpdateProduct(store, id, form, uploads);
      r.status == NoAnswer && r.state == store
  {
    var q := Merge(store[id], form, uploads);
    MergeTakesSent(store[id], form, uploads);
    assert store[other].name == q.name;
    assert SaveRefused(store, id, q);
  }

  /** An update whose quantity is the empty text is never answered and
      changes nothing. */
  lemma BlankQuantityUnanswered(store: map<Id, Product>, id: Id, form: ProductForm, uploads: Uploads)
    requires id in store && !OfferExceeds(form.offerPrice, form.price) && !VariantMalformed(form.proVariantId)
    requires form.quantity.Some? && form.quantity.value.text == ""
    ensures var r := UpdateProduct(store, id, form, uploads);
      r.status == NoAnswer && r.state == store
  {
  }

  /** The form of a request that submits nothing. */
  const EmptyForm := ProductForm(None, None, None, None, None, None, None, None, None, None, None)

  const NoUploads: Uploads := [None, None, None, None, None]

  /** An update that submits nothing leaves the product as it was. */
  lemma MergeNothing(p: Product)
    ensures Merge(p, EmptyForm, NoUploads) == p
  {
    assert Uploaded(NoUploads) == {} by {
      assert forall n | 1 <= n <= SlotCount :: !HasFile(NoUploads, n);
    }
    ApplyUploadsNothing(p.images, NoUploads);
  }

  /** Sending the same update twice has the effect of sending it once. */
  lemma MergeIdempotent(p: Product, form: ProductForm, uploads: Uploads)
    ensures Merge(Merge(p, form, uploads), form, uploads) == Merge(p, form, uploads)
  {
    ApplyUploadsIdempotent(p.images, uploads);
  }

  /** `x || previous` and its kin: a field the request leaves out, or sends
      falsy, keeps the stored value. A blank name or description counts as
      falsy once trimmed, a variant type of `"null"` is ignored, and the
      variants change only when the sent text parses to an array. Only the
      quantity, tested with `!== undefined`, is kept just when it is left
      out. */
  lemma MergeKeepsUnsent(p: Product, form: ProductForm, uploads: Uploads)
    ensures var q := Merge(p, form, uploads);
      && (!(form.name.Some? && Trim(form.name.value) != "") ==> q.name == p.name)
      && (!(form.description.Some? && Trim(form.description.value) != "") ==> q.description == p.description)
      && (form.quantity.None? ==> q.quantity == p.quantity)
      && (!NumFilled(form.price) ==> q.price == p.price)
      && (!NumFilled(form.offerPrice) ==> q.offerPrice == p.offerPrice)
      && (!Filled(form.proCategoryId) ==> q.proCategoryId == p.proCategoryId)
      && (!Filled(form.proSubCategoryId) ==> q.proSubCategoryId == p.proSubCategoryId)
      && (!Filled(form.proBrandId) ==> q.proBrandId == p.proBrandId)
      && (!Filled(form.proVariantTypeId) || form.proVariantTypeId.value == "null" ==>
            q.proVariantTypeId == p.proVariantTypeId)
      && (!ParsesToArray(form.proVariantId) ==> q.proVariantId == p.proVariantId)
      && (!Filled(form.specifications) ==> q.specifications == p.specifications)
  {
    var q := Merge(p, form, uploads);
    assert q.name == KeepOrTrim(form.name, p.name);
    assert q.proCategoryId == KeepOrTake(form.proCategoryId, p.proCategoryId);
    assert q.proSubCategoryId == KeepOrTake(form.proSubCategoryId, p.proSubCategoryId);
    assert q.proVariantId == MergeVariants(form.proVariantId, p.proVariantId);
  }

  /** A field the request fills in replaces the stored value: names and
      descriptions trimmed, any sent quantity text taken as sent, a variant
      type other than `"null"` taken, a text parsing to an array taken as the
      variants. */
  lemma MergeTakesSent(p: Product, form: ProductForm, uploads: Uploads)
    ensures var q := Merge(p, form, uploads);
      && (form.name.Some? && Trim(form.name.value) != "" ==> q.name == Trim(form.name.value))
      && (form.description.Some? && Trim(form.description.value) != "" ==>
            q.description == Some(Trim(form.description.value)))
      && (form.quantity.Some? ==> q.quantity == form.quantity.value)
      && (NumFilled(form.price) ==> q.price == form.price.value)
      && (NumFilled(form.offerPrice) ==> q.offerPrice == form.offerPrice)
      && (Filled(form.proCategoryId) ==> q.proCategoryId == form.proCategoryId.value)
      && (Filled(form.proSubCategoryId) ==> q.proSubCategoryId == form.proSubCategoryId.value)
      && (Filled(form.proBrandId) ==> q.proBrandId == form.proBrandId)
      && (Filled(form.proVariantTypeId) && form.proVariantTypeId.value != "null" ==>
            q.proVariantTypeId == form.proVariantTypeId)
      && (ParsesToArray(form.proVariantId) ==>
            q.proVariantId == VariantList(form.proVariantId.value.parsed.value.items))
      && (Filled(form.specifications) ==>
            q.specifications == Specifications.ParseSpecifications(form.specifications.value))
  {
    var q := Merge(p, form, uploads);
    assert q.name == KeepOrTrim(form.name, p.name);
    assert q.proCategoryId == KeepOrTake(form.proCategoryId, p.proCategoryId);
    assert q.proSubCategoryId == KeepOrTake(form.proSubCategoryId, p.proSubCategoryId);
    assert q.proVariantId == MergeVariants(form.proVariantId, p.proVariantId);
  }

  /** The stored variants change only to an array that was sent. */
  lemma MergeVariantsOnlyArrays(p: Product, form: ProductForm, uploads: Uploads)
    ensures var q := Merge(p, form, uploads);
      q.proVariantId != p.proVariantId ==>
        && form.proVariantId.Some?
        && form.proVariantId.value.parsed == Parsed(JArray(q.proVariantId.items))
  {
  }

  /** The merged images: every uploaded slot carries its new URL, every other
      slot keeps its old one, no slot appears twice if none did before. */
  lemma MergeImages(p: Product, form: ProductForm, uploads: Uploads)
    requires Distinct(p.images) && ValidSlots(p.images)
    ensures var q := Merge(p, form, uploads);
      && Slots(q.images) == Slots(p.images) + Uploaded(uploads)
      && (forall n | HasFile(uploads, n) :: UrlOf(q.images, n) == uploads[n - 1])
      && (forall n | !HasFile(uploads, n) :: UrlOf(q.images, n) == UrlOf(p.images, n))
      && Distinct(q.images) && ValidSlots(q.images)
  {
  }

  /** Without a submitted price the offer check cannot refuse an update. */
  lemma OfferNeedsSubmittedPrice(store: map<Id, Product>, id: Id, form: ProductForm, uploads: Uploads)
    requires id in store && !NumFilled(form.price)
    ensures UpdateProduct(store, id, form, uploads).message != MsgOffer
  {
  }

  /** An offer that reads as the same number as the price is accepted, on
      create and on update alike. */
  lemma OfferEqualToPriceAccepted(store: map<Id, Product>, id: Id, newId: Id, form: ProductForm, uploads: Uploads)
    requires newId !in store
    requires form.offerPrice.Some? && form.price.Some? && form.offerPrice.value.reading == form.price.value.reading
    ensures CreateProduct(store, form, uploads, newId).message != MsgOffer
    ensures UpdateProduct(store, id, form, uploads).message != MsgOffer
  {
  }

  /** An update keeps the image list free of duplicate slots and within 1..5. */
  lemma UpdateKeepsImagesValid(store: map<Id, Product>, id: Id, form: ProductForm, uploads: Uploads)
    requires id in store && Distinct(store[id].images) && ValidSlots(store[id].images)
    ensures var r := UpdateProduct(store, id, form, uploads);
      Distinct(r.state[id].images) && ValidSlots(r.state[id].images)
  {
  }
}

=== FILE: reviews.dfy ===
/** The review routes: create with three required fields, the listing of a
    product's reviews, an update that keeps what the body leaves falsy, and
    delete. */
module Reviews {
  import opened Common

  /** A review document, holding the body values the handler passes on. */
  datatype Review = Review(productId: Option<Json>, userId: Option<Json>, rating: Option<Json>, comment: Option<Json>)

  const MsgRequired := "Please provide productId, userId, and rating."
  const MsgCreated := "Thêm đánh giá thành công ."
  const MsgNoneForProduct := "No reviews found for this product."
  const MsgListed := "Reviews retrieved successfully."
  const MsgNotFound := "Review not found."
  const MsgUpdated := "Review updated successfully."
  const MsgDeleted := "Review deleted successfully."

  /** `POST /reviews`: product, user and rating must be truthy; the comment
      is optional. */
  function CreateReview(store: map<Id, Review>, body: Review, newId: Id): (r: Reply<map<Id, Review>>)
    requires newId !in store
    ensures r.status == Ok <==> Truthy(body.productId) && Truthy(body.userId) && Truthy(body.rating)
    ensures r.status != Ok ==> r.status == BadRequest && r.message == MsgRequired && r.state == store
    ensures r.status == Ok ==>
      && r.state.Keys == store.Keys + {newId}
      && r.state[newId] == body
      && forall id | id in store :: r.state[id] == store[id]
  {
    if !Truthy(body.productId) || !Truthy(body.userId) || !Truthy(body.rating) then
      Reply(BadRequest, MsgRequired, store)
    else Reply(Ok, MsgCreated, store[newId := body])
  }

  /** `Review.find({ productId })`: the reviews of one product; none at all is
      answered with 404. */
  function ReviewsOfProduct(store: map<Id, Review>, productId: Id): (r: Reply<map<Id, Review>>)
    ensures forall id :: id in r.state <==> id in store && store[id].productId == Some(JStr(productId))
    ensures forall id | id in r.state :: r.state[id] == store[id]
    ensures r.status == NotFound <==> r.state == map[]
    ensures r.status == Ok || r.status == NotFound
    ensures r.status == NotFound ==> r.message == MsgNoneForProduct
  {
    var found := map id | id in store && store[id].productId == Some(JStr(productId)) :: store[id];
    if found == map[] then Reply(NotFound, MsgNoneForProduct, found) else Reply(Ok, MsgListed, found)
  }

  /** `if (rating) review.rating = rating; if (comment) review.comment = comment`. */
  function Patch(review: Review, rating: Option<Json>, comment: Option<Json>): (r: Review)
    ensures r.productId == review.productId && r.userId == review.userId
  {
    review.(rating := if Truthy(rating) then rating else review.rating,
            comment := if Truthy(comment) then comment else review.comment)
  }

  /** `PUT /reviews/:reviewId`: 404 for an unknown review, else the patch. */
  function UpdateReview(store: map<Id, Review>, id: Id, rating: Option<Json>, comment: Option<Json>)
    : (r: Reply<map<Id, Review>>)
    ensures r.status == NotFound <==> id !in store
    ensures r.status != NotFound ==> r.status == Ok
    ensures r.status == NotFound ==> r.state == store
    ensures r.status == Ok ==>
      && r.state.Keys == store.Keys
      && r.state[id] == Patch(store[id], rating, comment)
      && forall other | other in store && other != id :: r.state[other] == store[other]
  {
    if id !in store then Reply(NotFound, MsgNotFound, store)
    else Reply(Ok, MsgUpdated, store[id := Patch(store[id], rating, comment)])
  }

  /** `DELETE /reviews/:reviewId`. */
  function DeleteReview(store: map<Id, Review>, id: Id): (r: Reply<map<Id, Review>>)
    ensures r.status == NotFound <==> id !in store
    ensures r.status != NotFound ==> r.status == Ok && r.state == store - {id}
    ensures r.status == NotFound ==> r.state == store
  {
    if id !in store then Reply(NotFound, MsgNotFound, store)
    else Reply(Ok, MsgDeleted, store - {id})
  }

  /** The patch keeps the product and the user; a falsy rating or comment
      (absent, `0`, `""`, `null`, `false`) keeps the stored one, a truthy one
      replaces it. */
  lemma PatchFields(review: Review, rating: Option<Json>, comment: Option<Json>)
    ensures var p := Patch(review, rating, comment);
      && p.productId == review.productId && p.userId == review.userId
      && (p.rating == if Truthy(rating) then rating else review.rating)
      && (p.comment == if Truthy(comment) then comment else review.comment)
  {
  }

  /** A rating of `0` cannot be set: it is falsy. */
  lemma ZeroRatingIgnored(review: Review)
    ensures Patch(review, Some(JNum(0.0)), None) == review
  {
  }

  /** The patch is idempotent, and patching with nothing changes nothing. */
  lemma PatchIdempotent(review: Review, rating: Option<Json>, comment: Option<Json>)
    ensures Patch(Patch(review, rating, comment), rating, comment) == Patch(review, rating, comment)
    ensures Patch(review, None, None) == review
  {
  }

  /** A created review is listed under its product, and the listing then
      answers 200. */
  lemma CreatedReviewListed(store: map<Id, Review>, body: Review, newId: Id, productId: Id)
    requires newId !in store && productId != "" && body.productId == Some(JStr(productId))
    requires Truthy(body.userId) && Truthy(body.rating)
    ensures var r := ReviewsOfProduct(CreateReview(store, body, newId).state, productId);
      r.status == Ok && newId in r.state && r.state[newId] == body
  {
  }

  /** A deleted review leaves its product's listing, and no other review
      does. */
  lemma DeletedReviewUnlisted(store: map<Id, Review>, id: Id, productId: Id)
    ensures ReviewsOfProduct(DeleteReview(store, id).state, productId).state.Keys
         == ReviewsOfProduct(store, productId).state.Keys - {id}
  {
  }

  /** Updating a review keeps it in its product's listing. */
  lemma UpdateKeepsListing(store: map<Id, Review>, id: Id, rating: Option<Json>, comment: Option<Json>, productId: Id)
    ensures ReviewsOfProduct(UpdateReview(store, id, rating, comment).state, productId).state.Keys
         == ReviewsOfProduct(store, productId).state.Keys
  {
  }
}

=== FILE: specifications.dfy ===
/** The product specification text parser: one `key: value` pair per line,
    lines separated by CRLF, folded into a key/value map. */
module Specifications {
  import opened Common
  import opened JsString

  const LineBreak: string := "\r\n"

  /** Assigning a string to this key of a plain JavaScript object is a no-op:
      it hits the prototype setter, not an own property. */
  const ProtoKey: string := "__proto__"

  /** The lines of a specification text: it is split on CRLF only. */
  function Lines(s: string): (r: seq<string>)
    ensures |r| >= 1
    ensures Join(r, LineBreak) == s
  {
    JoinSplit(s, LineBreak);
    Split(s, LineBreak)
  }

  /** The pair a line contributes: with `[key, value] = line.split(":")`, both
      must be non-empty before trimming, and both are stored trimmed. Any
      segment after a second colon is ignored. */
  function LineEntry(line: string): (e: Option<(string, string)>)
    ensures ':' !in line ==> e == None
    ensures e.Some? ==> Clean(e.value.0) && Clean(e.value.1)
  {
    var parts := Split(line, ":");
    SplitShape(line, parts);
    if |parts| >= 2 && parts[0] != "" && parts[1] != "" then
      TrimKeepsAbsent(':', parts[0]);
      TrimKeepsAbsent(':', parts[1]);
      Some((Trim(parts[0]), Trim(parts[1])))
    else
      None
  }

  lemma SplitShape(line: string, parts: seq<string>)
    requires parts == Split(line, ":")
    ensures |parts| >= 2 ==> ':' in line
    ensures forall p | p in parts :: ':' !in p
  {
    JoinSplit(line, ":");
    SplitPieces(line, ":");
    forall p | p in parts ensures ':' !in p {
      OccursChar(':', p);
    }
    if |parts| >= 2 {
      assert line == parts[0] + ":" + Join(parts[1..], ":");
      assert line[|parts[0]|] == ':';
    }
  }

  /** Trimming keeps a character out that was out before. */
  lemma TrimKeepsAbsent(c: char, s: string)
    requires c !in s
    ensures c !in Trim(s)
  {
    var t := Trim(s);
    var lead := PaddedLead(s, t);
    forall j | 0 <= j < |t| ensures t[j] != c {
      assert t[j] == s[lead + j];
    }
  }

  /** A line's entry, if any, has key `k`. */
  predicate HasKey(e: Option<(string, string)>, k: string) {
    e.Some? && e.value.0 == k
  }

  /** Line `line` defines key `k`. */
  predicate Defines(line: string, k: string) {
    HasKey(LineEntry(line), k)
  }

  /** A stored key or value: trimmed and free of colons. */
  predicate Clean(s: string) {
    Unpadded(s) && ':' !in s
  }

  /** Every key and value is clean. */
  predicate WellFormed(m: map<string, string>) {
    forall k | k in m :: Clean(k) && Clean(m[k])
  }

  predicate CleanEntries(es: seq<Option<(string, string)>>) {
    forall i | 0 <= i < |es| && es[i].Some? :: Clean(es[i].value.0) && Clean(es[i].value.1)
  }

  /** The entries of the lines, in order. */
  function Entries(lines: seq<string>): (es: seq<Option<(string, string)>>)
    ensures |es| == |lines|
    ensures forall i | 0 <= i < |lines| :: es[i] == LineEntry(lines[i])
    ensures CleanEntries(es)
  {
    seq(|lines|, i requires 0 <= i < |lines| => LineEntry(lines[i]))
  }

  /** One step of the reduce: `acc[key.trim()] = value.trim()`. */
  function Put(acc: map<string, string>, e: Option<(string, string)>): map<string, string>
  {
    match e
    case None => acc
    case Some((k, v)) => if k == ProtoKey then acc else acc[k := v]
  }

  /** The reduce over the lines' entries, left to right. */
  function Collect(es: seq<Option<(string, string)>>, acc: map<string, string>): (r: map<string, string>)
    ensures WellFormed(acc) && CleanEntries(es) ==> WellFormed(r)
    ensures ProtoKey !in acc ==> ProtoKey !in r
    decreases |es|
  {
    if |es| == 0 then acc
    else
      assert CleanEntries(es) ==> CleanEntries(es[1..]) by {
        assert forall i | 0 <= i < |es| - 1 :: es[1..][i] == es[i + 1];
      }
      Collect(es[1..], Put(acc, es[0]))
  }

  /** `parseSpecifications`: the map built from a specification text. */
  function ParseSpecifications(s: string): (r: map<string, string>)
    ensures WellFormed(r)
    ensures ProtoKey !in r
  {
    Collect(Entries(Lines(s)), map[])
  }

  /** Reference reading of the map: the value of the last entry with key `k`,
      searched from the end. */
  function LastValue(es: seq<Option<(string, string)>>, k: string): Option<string>
    decreases |es|
  {
    if |es| == 0 then None
    else if HasKey(es[|es| - 1], k) then Some(es[|es| - 1].value.1)
    else LastValue(es[..|es| - 1], k)
  }

  lemma {:induction false} CollectSnoc(es: seq<Option<(string, string)>>, e: Option<(string, string)>, acc: map<string, string>)
    ensures Collect(es + [e], acc) == Put(Collect(es, acc), e)
    decreases |es|
  {
    if |es| == 0 {
      assert [e][1..] == [];
    } else {
      assert (es + [e])[1..] == es[1..] + [e];
      CollectSnoc(es[1..], e, Put(acc, es[0]));
    }
  }

  /** The left fold and the search from the end agree on every ordinary key. */
  lemma {:induction false} CollectAgrees(es: seq<Option<(string, string)>>, acc: map<string, string>, k: string)
    requires k != ProtoKey
    ensures LastValue(es, k).Some? ==>
      k in Collect(es, acc) && Collect(es, acc)[k] == LastValue(es, k).value
    ensures LastValue(es, k).None? ==>
      (k in Collect(es, acc) <==> k in acc)
      && (k in acc ==> Collect(es, acc)[k] == acc[k])
    decreases |es|
  {
    if |es| > 0 {
      var init := es[..|es| - 1];
      var last := es[|es| - 1];
      assert es == init + [last];
      CollectSnoc(init, last, acc);
      CollectAgrees(init, acc, k);
    }
  }

  lemma {:induction false} LastValueAt(es: seq<Option<(string, string)>>, k: string, i: int)
    requires 0 <= i < |es| && HasKey(es[i], k)
    requires forall j | i < j < |es| :: !HasKey(es[j], k)
    ensures LastValue(es, k) == Some(es[i].value.1)
    decreases |es|
  {
    if i < |es| - 1 {
      var init := es[..|es| - 1];
      assert init[i] == es[i];
      assert forall j | i < j < |init| :: init[j] == es[j];
      LastValueAt(init, k, i);
    }
  }

  lemma {:induction false} LastValueNone(es: seq<Option<(string, string)>>, k: string)
    ensures LastValue(es, k).None? <==> forall i | 0 <= i < |es| :: !HasKey(es[i], k)
    decreases |es|
  {
    if |es| > 0 {
      var init := es[..|es| - 1];
      LastValueNone(init, k);
      assert forall i | 0 <= i < |init| :: init[i] == es[i];
    }
  }

  /** A key is in the parsed map exactly when some CRLF-separated line defines
      it (the prototype key aside). */
  lemma ParseSpecificationsKeys(s: string, k: string)
    ensures k in ParseSpecifications(s) <==>
      k != ProtoKey && exists i | 0 <= i < |Lines(s)| :: Defines(Lines(s)[i], k)
  {
    var es := Entries(Lines(s));
    if k != ProtoKey {
      CollectAgrees(es, map[], k);
      LastValueNone(es, k);
    }
  }

  /** When several lines define the same key, the last one wins. */
  lemma ParseSpecificationsLastWins(s: string, k: string, i: int)
    requires k != ProtoKey
    requires 0 <= i < |Lines(s)| && Defines(Lines(s)[i], k)
    requires forall j | i < j < |Lines(s)| :: !Defines(Lines(s)[j], k)
    ensures k in ParseSpecifications(s)
    ensures ParseSpecifications(s)[k] == LineEntry(Lines(s)[i]).value.1
  {
    var es := Entries(Lines(s));
    CollectAgrees(es, map[], k);
    LastValueAt(es, k, i);
  }

  /** The empty text gives the empty map. */
  lemma ParseSpecificationsEmpty()
    ensures ParseSpecifications("") == map[]
  {
    assert Lines("") == [""];
  }

  /** With `key:value:rest`, text after the second colon is dropped and both
      segments are trimmed. */
  lemma LineEntryFirstTwoSegments(key: string, value: string, rest: string)
    requires ':' !in key && ':' !in value
    requires key != "" && value != ""
    ensures LineEntry(key + ":" + value + ":" + rest) == Some((Trim(key), Trim(value)))
  {
    var line := key + ":" + value + ":" + rest;
    assert line == key + [':'] + (value + [':'] + rest);
    SplitFromAtSep(key, ':', value + [':'] + rest, "");
    SplitFromAtSep(value, ':', rest, "");
    assert "" + key == key && "" + value == value;
    var parts := Split(line, ":");
    assert parts == [key] + ([value] + SplitFrom(rest, ":", ""));
    assert parts[0] == key && parts[1] == value;
  }

  /** A line `key:value` with one colon contributes its trimmed halves. */
  lemma LineEntryOneColon(key: string, value: string)
    requires ':' !in key && ':' !in value
    requires key != "" && value != ""
    ensures LineEntry(key + ":" + value) == Some((Trim(key), Trim(value)))
  {
    var line := key + ":" + value;
    assert line == key + [':'] + value;
    SplitFromAtSep(key, ':', value, "");
    SplitFromNoSep(value, ':', "");
    assert "" + key == key && "" + value == value;
    var parts := Split(line, ":");
    assert parts == [key, value];
  }

  /** A line ending in its only colon has an empty value and contributes
      nothing, even if the value would be blank only after trimming the key. */
  lemma LineEntryEmptyValue(key: string)
    requires ':' !in key
    ensures LineEntry(key + ":") == None
  {
    assert key + ":" == key + [':'] + "";
    SplitFromAtSep(key, ':', "", "");
    SplitFromNoSep("", ':', "");
  }

  /** A line starting with a colon has an empty key and contributes nothing,
      whatever follows, further colons included. */
  lemma LineEntryEmptyKey(rest: string)
    ensures LineEntry(":" + rest) == None
  {
    assert ":" + rest == "" + [':'] + rest;
    SplitFromAtSep("", ':', rest, "");
    assert Split(":" + rest, ":")[0] == "";
  }

  /** A line `key::rest` has an empty second segment and contributes
      nothing, whatever follows the second colon. */
  lemma LineEntryEmptyMiddle(key: string, rest: string)
    requires ':' !in key
    ensures LineEntry(key + "::" + rest) == None
  {
    var line := key + "::" + rest;
    assert line == key + [':'] + ("" + [':'] + rest);
    SplitFromAtSep(key, ':', "" + [':'] + rest, "");
    SplitFromAtSep("", ':', rest, "");
    assert "" + key == key && "" + "" == "";
    var parts := Split(line, ":");
    assert parts == [key] + ([""] + SplitFrom(rest, ":", ""));
    assert parts[1] == "";
  }

  /** Without a carriage return the whole text is one line: a lone line feed
      does not separate lines. */
  lemma LinesWithoutCarriageReturn(s: string)
    requires '\r' !in s
    ensures Lines(s) == [s]
  {
    AbsentHead(LineBreak, s);
    SplitFromNoOccurrence(s, LineBreak, "");
  }
}

=== FILE: users.dfy ===
/** The user routes: the admin gate, login, registration, update and delete. */
module Users {
  import opened Common

  /** A user document (model/user.js). `password` is stored as sent. */
  datatype User = User(name: Option<string>, email: string, password: string, role: string, avatar: string)

  const DefaultRole := "user"
  const AdminRole := "admin"
  const DefaultAvatar := "ecommerce-admin/avatar_default.png"

  /** The values the schema's `role` enum admits. */
  predicate KnownRole(role: string) {
    role == DefaultRole || role == AdminRole
  }

  const MsgAccessDenied := "Access denied."
  const MsgInvalidLogin := "Invalid email or password."
  const MsgLoggedIn := "Login successful."
  const MsgRequired := "Email, password, and confirm password are required."
  const MsgMismatch := "Passwords do not match."
  const MsgCreated := "User created successfully."
  const MsgNotFound := "User not found."
  const MsgOldPassword := "Old password is incorrect."
  const MsgNewMismatch := "New passwords do not match."
  const MsgNothingToUpdate := "No fields to update."
  const MsgUpdated := "User updated successfully."
  const MsgDeleted := "User deleted successfully."

  /** Outcome of a middleware: call the next handler, or answer right away. */
  datatype Gate = Next | Refuse(status: Status, message: string)

  /** `isAdmin`: only a request made by a user whose role is exactly
      `"admin"` gets through. */
  function IsAdmin(requester: Option<User>): (g: Gate)
    ensures g.Next? <==> requester.Some? && requester.value.role == AdminRole
    ensures g.Refuse? ==> g.status == Forbidden && g.message == MsgAccessDenied
  {
    if requester.Some? && requester.value.role == AdminRole then Next
    else Refuse(Forbidden, MsgAccessDenied)
  }

  /** The unique index on `email`. */
  ghost predicate UniqueEmails(store: map<Id, User>) {
    forall a, b | a in store && b in store && store[a].email == store[b].email :: a == b
  }

  /** Every stored role passed the enum validator. */
  ghost predicate ValidRoles(store: map<Id, User>) {
    forall id | id in store :: KnownRole(store[id].role)
  }

  predicate EmailTaken(store: map<Id, User>, email: string) {
    exists id | id in store :: store[id].email == email
  }

  /** Some stored user has exactly this email and password. */
  predicate Matches(store: map<Id, User>, email: Option<string>, password: Option<string>) {
    email.Some? && password.Some?
      && exists id | id in store :: store[id].email == email.value && store[id].password == password.value
  }

  /** `POST /login`: the user found by email, if the password sent is the
      stored one. A missing email finds nobody. */
  function Login(store: map<Id, User>, email: Option<string>, password: Option<string>)
    : (r: Reply<Option<User>>)
    requires UniqueEmails(store)
    ensures r.status == Ok <==> Matches(store, email, password)
    ensures r.status != Ok ==> r.status == Unauthorized && r.message == MsgInvalidLogin && r.state == None
    ensures r.status == Ok ==>
      && r.message == MsgLoggedIn
      && r.state.Some? && r.state.value.email == email.value
      && exists id | id in store :: store[id] == r.state.value
  {
    if email.Some? && EmailTaken(store, email.value) then
      var id :| id in store && store[id].email == email.value;
      if password == Some(store[id].password) then Reply(Ok, MsgLoggedIn, Some(store[id]))
      else Reply(Unauthorized, MsgInvalidLogin, None)
    else Reply(Unauthorized, MsgInvalidLogin, None)
  }

  /** The body of a registration. `phone`, `street`, `city`, `state`,
      `postalCode` and `country` are read but the schema has no such paths,
      so they are dropped and not modelled. */
  datatype Registration = Registration(email: Option<string>, password: Option<string>, confirmPassword: Option<string>)

  /** The document a registration creates: no name, the default role and
      avatar, the password as sent. */
  function Registered(form: Registration): (u: User)
    requires Filled(form.email) && Filled(form.password)
    ensures u.email == form.email.value && u.password == form.password.value
    ensures u.name.None? && u.role == DefaultRole && u.avatar == DefaultAvatar
  {
    User(None, form.email.value, form.password.value, DefaultRole, DefaultAvatar)
  }

  /** `POST /register`: required fields, then matching passwords, then the
      unique index on `email` (a duplicate fails the save with a 500). */
  function Register(store: map<Id, User>, form: Registration, newId: Id): (r: Reply<map<Id, User>>)
    requires newId !in store
    ensures r.status == BadRequest <==>
      !Filled(form.email) || !Filled(form.password) || !Filled(form.confirmPassword)
      || form.password != form.confirmPassword
    ensures r.message == MsgRequired <==>
      !Filled(form.email) || !Filled(form.password) || !Filled(form.confirmPassword)
    ensures r.status == ServerError ==> EmailTaken(store, form.email.value)
    ensures r.status in {Ok, BadRequest, ServerError}
    ensures r.status != Ok ==> r.state == store
    ensures r.status == Ok ==>
      && !EmailTaken(store, form.email.value)
      && r.state == store[newId := Registered(form)]
    ensures UniqueEmails(store) ==> UniqueEmails(r.state)
    ensures ValidRoles(store) ==> ValidRoles(r.state)
  {
    if !Filled(form.email) || !Filled(form.password) || !Filled(form.confirmPassword) then
      Reply(BadRequest, MsgRequired, store)
    else if form.password != form.confirmPassword then Reply(BadRequest, MsgMismatch, store)
    else if EmailTaken(store, form.email.value) then Reply(ServerError, DriverError, store)
    else Reply(Ok, MsgCreated, store[newId := Registered(form)])
  }

  /** The body of an update, as the handler destructures it. */
  datatype UserForm = UserForm(
    name: Option<string>,
    email: Option<string>,
    password: Option<string>,
    newPassword: Option<string>,
    confirmNewPassword: Option<string>,
    phone: Option<string>,
    street: Option<string>,
    city: Option<string>,
    state: Option<string>,
    postalCode: Option<string>,
    country: Option<string>,
    role: Option<string>)

  /** The keys `updateData` can hold: the nine body fields copied when
      truthy, in the handler's order, then `avatar`. */
  datatype Key = Name | Email | Phone | Street | City | State | PostalCode | Country | Role | Avatar | Password

  /** The body field behind a key. `Avatar` comes from the upload and
      `Password` is never copied by the handler as written. */
  function Field(form: UserForm, key: Key): Option<string> {
    match key
    case Name => form.name
    case Email => form.email
    case Phone => form.phone
    case Street => form.street
    case City => form.city
    case State => form.state
    case PostalCode => form.postalCode
    case Country => form.country
    case Role => form.role
    case Avatar => None
    case Password => None
  }

  const AllKeys: set<Key> := {Name, Email, Phone, Street, City, State, PostalCode, Country, Role, Avatar, Password}

  /** `updateData`: each of the nine body fields that is truthy under its own
      key (`if (name) updateData.name = name`, and so on), and the uploaded
      file's path under `avatar`. */
  function BuildPatch(form: UserForm, avatar: Option<Url>): (patch: map<Key, string>)
    ensures forall k | k != Avatar :: k in patch <==> Filled(Field(form, k))
    ensures forall k | k != Avatar && k in patch && Filled(Field(form, k)) :: patch[k] == Field(form, k).value
    ensures Avatar in patch <==> avatar.Some?
    ensures Avatar in patch ==> patch[Avatar] == avatar.value
  {
    map k | k in AllKeys && (if k == Avatar then avatar.Some? else Filled(Field(form, k)))
      :: if k == Avatar then avatar.value else Field(form, k).value
  }

  /** `findByIdAndUpdate` in strict mode: only the schema's paths change;
      `phone`, `street`, `city`, `state`, `postalCode` and `country` are
      silently dropped. */
  function ApplyPatch(u: User, patch: map<Key, string>): User {
    User(
      if Name in patch then Some(patch[Name]) else u.name,
      if Email in patch then patch[Email] else u.email,
      u.password,
      if Role in patch then patch[Role] else u.role,
      if Avatar in patch then patch[Avatar] else u.avatar)
  }

  /** The patch never touches the password, and one holding only keys the
      schema lacks changes nothing. */
  lemma ApplyPatchPaths(u: User, patch: map<Key, string>)
    ensures ApplyPatch(u, patch).password == u.password
    ensures Name !in patch && Email !in patch && Role !in patch && Avatar !in patch ==> ApplyPatch(u, patch) == u
  {
  }

  /** The validators `runValidators` runs, and the unique index, refuse the
      patch: a role outside the enum, or an email another user holds. */
  predicate PatchRefused(store: map<Id, User>, id: Id, patch: map<Key, string>) {
    (Role in patch && !KnownRole(patch[Role]))
      || (Email in patch && exists other | other in store && other != id :: store[other].email == patch[Email])
  }

  /** What the two password checks before the patch is built find. */
  datatype PasswordVerdict = PasswordsAccepted | OldPasswordWrong | NewPasswordsDiffer {
    function Message(): string {
      match this
      case PasswordsAccepted => ""
      case OldPasswordWrong => MsgOldPassword
      case NewPasswordsDiffer => MsgNewMismatch
    }
  }

  /** The old password, when sent, must be the stored one; then a new
      password, when sent, must equal its confirmation. */
  function PasswordCheck(u: User, form: UserForm): (v: PasswordVerdict)
    ensures v == OldPasswordWrong <==> Filled(form.password) && form.password.value != u.password
    ensures v == NewPasswordsDiffer <==>
      !(Filled(form.password) && form.password.value != u.password)
      && Filled(form.newPassword) && form.newPassword != form.confirmNewPassword
  {
    if Filled(form.password) && form.password.value != u.password then OldPasswordWrong
    else if Filled(form.newPassword) && form.newPassword != form.confirmNewPassword then NewPasswordsDiffer
    else PasswordsAccepted
  }

  /** `PUT /users/:id` as written: 404, the password checks, an empty patch
      refused, then the update. The new password is checked but never
      written. */
  function UpdateUserAsWritten(store: map<Id, User>, id: Id, form: UserForm, avatar: Option<Url>)
    : (r: Reply<map<Id, User>>)
    ensures r.status == NotFound <==> id !in store
    ensures r.status == BadRequest <==>
      id in store && (!PasswordCheck(store[id], form).PasswordsAccepted? || |BuildPatch(form, avatar)| == 0)
    ensures r.status == ServerError <==>
      id in store && PasswordCheck(store[id], form).PasswordsAccepted? && |BuildPatch(form, avatar)| != 0
      && PatchRefused(store, id, BuildPatch(form, avatar))
    ensures r.status in {Ok, NotFound, BadRequest, ServerError}
    ensures r.status == BadRequest ==>
      r.message == (if PasswordCheck(store[id], form).PasswordsAccepted? then MsgNothingToUpdate
                    else PasswordCheck(store[id], form).Message())
    ensures r.status == BadRequest && r.message == MsgNothingToUpdate <==>
      id in store && PasswordCheck(store[id], form).PasswordsAccepted? && |BuildPatch(form, avatar)| == 0
    ensures r.status != Ok ==> r.state == store
    ensures r.status == Ok ==> r.message == MsgUpdated
    ensures r.status == Ok ==> r.state == store[id := ApplyPatch(store[id], BuildPatch(form, avatar))]
  {
    if id !in store then Reply(NotFound, MsgNotFound, store)
    else
      var u := store[id];
      var check := PasswordCheck(u, form);
      if !check.PasswordsAccepted? then Reply(BadRequest, check.Message(), store)
      else
        var patch := BuildPatch(form, avatar);
        if |patch| == 0 then Reply(BadRequest, MsgNothingToUpdate, store)
        else if PatchRefused(store, id, patch) then Reply(ServerError, DriverError, store)
        else Reply(Ok, MsgUpdated, store[id := ApplyPatch(u, patch)])
  }

  /** The patch with the confirmed new password added under `password`. */
  function PatchWithPassword(form: UserForm, avatar: Option<Url>): (patch: map<Key, string>)
    ensures Password in patch <==> Filled(form.newPassword)
    ensures Password in patch ==> patch[Password] == form.newPassword.value
    ensures forall k | k != Password :: (k in patch <==> k in BuildPatch(form, avatar))
    ensures forall k | k != Password && k in patch :: patch[k] == BuildPatch(form, avatar)[k]
  {
    var patch := BuildPatch(form, avatar);
    if Filled(form.newPassword) then patch[Password := form.newPassword.value] else patch
  }

  /** `findByIdAndUpdate` with the corrected patch, which may carry a new
      password. */
  function ApplyPatchWithPassword(u: User, patch: map<Key, string>): (v: User)
    ensures v.password == if Password in patch then patch[Password] else u.password
  {
    var v := ApplyPatch(u, patch);
    if Password in patch then v.(password := patch[Password]) else v
  }

  /** `PUT /users/:id` as evidently intended: a confirmed new password is
      stored. All other checks and effects are those of the handler as
      written. */
  function UpdateUser(store: map<Id, User>, id: Id, form: UserForm, avatar: Option<Url>)
    : (r: Reply<map<Id, User>>)
    ensures r.status == NotFound <==> id !in store
    ensures r.status == BadRequest <==>
      id in store && (!PasswordCheck(store[id], form).PasswordsAccepted? || |PatchWithPassword(form, avatar)| == 0)
    ensures r.status == ServerError <==>
      id in store && PasswordCheck(store[id], form).PasswordsAccepted? && |PatchWithPassword(form, avatar)| != 0
      && PatchRefused(store, id, PatchWithPassword(form, avatar))
    ensures r.status in {Ok, NotFound, BadRequest, ServerError}
    ensures r.status == BadRequest ==>
      r.message == (if PasswordCheck(store[id], form).PasswordsAccepted? then MsgNothingToUpdate
                    else PasswordCheck(store[id], form).Message())
    ensures r.status == BadRequest && r.message == MsgNothingToUpdate <==>
      id in store && PasswordCheck(store[id], form).PasswordsAccepted? && |PatchWithPassword(form, avatar)| == 0
    ensures r.status != Ok ==> r.state == store
    ensures r.status == Ok ==> r.message == MsgUpdated
    ensures r.status == Ok ==> r.state == store[id := ApplyPatchWithPassword(store[id], PatchWithPassword(form, avatar))]
  {
    if id !in store then Reply(NotFound, MsgNotFound, store)
    else
      var u := store[id];
      var check := PasswordCheck(u, form);
      if !check.PasswordsAccepted? then Reply(BadRequest, check.Message(), store)
      else
        var patch := PatchWithPassword(form, avatar);
        if |patch| == 0 then Reply(BadRequest, MsgNothingToUpdate, store)
        else if PatchRefused(store, id, patch) then Reply(ServerError, DriverError, store)
        else Reply(Ok, MsgUpdated, store[id := ApplyPatchWithPassword(u, patch)])
  }

  /** After a successful corrected update the user holds the confirmed new
      password, or the old one when none was sent, and no other user
      changes. */
  lemma UpdateStoresNewPassword(store: map<Id, User>, id: Id, form: UserForm, avatar: Option<Url>)
    requires UpdateUser(store, id, form, avatar).status == Ok
    ensures var s := UpdateUser(store, id, form, avatar).state;
      && s.Keys == store.Keys
      && (forall other | other in store && other != id :: s[other] == store[other])
      && s[id].password == (if Filled(form.newPassword) then form.newPassword.value else store[id].password)
      && (Filled(form.newPassword) ==> form.newPassword == form.confirmNewPassword)
  {
    var r := UpdateUser(store, id, form, avatar);
    assert id in store && PasswordCheck(store[id], form).PasswordsAccepted?;
    var v := ApplyPatchWithPassword(store[id], PatchWithPassword(form, avatar));
    assert r.state == store[id := v];
    ReplaceOnly(store, id, v);
  }

  /** Replacing a stored user keeps the ids and every other user. */
  lemma ReplaceOnly(store: map<Id, User>, id: Id, v: User)
    requires id in store
    ensures store[id := v].Keys == store.Keys && store[id := v][id] == v
    ensures forall other | other in store && other != id :: store[id := v][other] == store[other]
  {
  }

  /** Without a new password the correction changes nothing: both versions
      answer and store alike. */
  lemma UpdateAgreesWithoutNewPassword(store: map<Id, User>, id: Id, form: UserForm, avatar: Option<Url>)
    requires !Filled(form.newPassword)
    ensures UpdateUser(store, id, form, avatar) == UpdateUserAsWritten(store, id, form, avatar)
  {
    if id in store {
      assert PatchWithPassword(form, avatar) == BuildPatch(form, avatar);
    }
  }

  /** `DELETE /users/:id`. */
  function DeleteUser(store: map<Id, User>, id: Id): (r: Reply<map<Id, User>>)
    ensures r.status == NotFound <==> id !in store
    ensures r.status != NotFound ==> r.status == Ok && r.state == store - {id}
    ensures r.status == NotFound ==> r.state == store
  {
    if id !in store then Reply(NotFound, MsgNotFound, store)
    else Reply(Ok, MsgDeleted, store - {id})
  }

  /** A user who has just registered can log in with the email and password
      they registered with. */
  lemma RegisterThenLogin(store: map<Id, User>, form: Registration, newId: Id)
    requires newId !in store && UniqueEmails(store)
    requires Register(store, form, newId).status == Ok
    ensures var s := Register(store, form, newId).state;
      UniqueEmails(s) && Login(s, form.email, form.password).status == Ok
  {
    var s := Register(store, form, newId).state;
    assert s[newId].email == form.email.value && s[newId].password == form.password.value;
  }

  /** Login succeeds with the stored password only. */
  lemma LoginNeedsStoredPassword(store: map<Id, User>, id: Id, password: string)
    requires UniqueEmails(store) && id in store
    ensures Login(store, Some(store[id].email), Some(password)).status == Ok <==> password == store[id].password
  {
  }

  /** Past the password checks, a non-empty patch the validators accept is
      stored and answered with 200. */
  lemma AsWrittenAccepted(store: map<Id, User>, id: Id, form: UserForm, avatar: Option<Url>)
    requires id in store && PasswordCheck(store[id], form).PasswordsAccepted?
    requires |BuildPatch(form, avatar)| != 0 && !PatchRefused(store, id, BuildPatch(form, avatar))
    ensures UpdateUserAsWritten(store, id, form, avatar)
      == Reply(Ok, MsgUpdated, store[id := ApplyPatch(store[id], BuildPatch(form, avatar))])
  {
  }

  /** The handler as written never changes a password, even when it answers
      200 to a request carrying a confirmed new password. */
  lemma UpdateAsWrittenKeepsPassword(store: map<Id, User>, id: Id, form: UserForm, avatar: Option<Url>)
    requires id in store
    ensures UpdateUserAsWritten(store, id, form, avatar).state[id].password == store[id].password
  {
  }

  /** So a 200 answer to a request with a confirmed new password leaves
      login refusing that new password. */
  lemma AsWrittenNewPasswordRefused(store: map<Id, User>, id: Id, form: UserForm, avatar: Option<Url>)
    requires UniqueEmails(store) && id in store
    requires UpdateUserAsWritten(store, id, form, avatar).status == Ok
    requires Filled(form.newPassword) && form.newPassword.value != store[id].password
    ensures var s := UpdateUserAsWritten(store, id, form, avatar).state;
      UniqueEmails(s) && Login(s, Some(s[id].email), form.newPassword).status == Unauthorized
  {
    var s := UpdateUserAsWritten(store, id, form, avatar).state;
    UpdateAsWrittenKeepsUniqueEmails(store, id, form, avatar);
    UpdateAsWrittenKeepsPassword(store, id, form, avatar);
    assert id in s;
    LoginNeedsStoredPassword(s, id, form.newPassword.value);
  }

  /** Such a request exists: the right old password, a confirmed new one and
      a new name get a 200. */
  lemma NewPasswordIgnored()
    ensures var store := map["u" := User(None, "a@b.c", "old", DefaultRole, DefaultAvatar)];
      var form := UserForm(Some("N"), None, Some("old"), Some("new"), Some("new"),
                           None, None, None, None, None, None, None);
      UpdateUserAsWritten(store, "u", form, None).status == Ok
  {
    var store := map["u" := User(None, "a@b.c", "old", DefaultRole, DefaultAvatar)];
    var form := UserForm(Some("N"), None, Some("old"), Some("new"), Some("new"),
                         None, None, None, None, None, None, None);
    assert PasswordCheck(store["u"], form).PasswordsAccepted?;
    NameOnlyAccepted(store, "u", form);
  }

  /** Past the password checks, a new name with no email and no role is
      always stored. */
  lemma NameOnlyAccepted(store: map<Id, User>, id: Id, form: UserForm)
    requires id in store && PasswordCheck(store[id], form).PasswordsAccepted?
    requires Filled(form.name) && !Filled(form.email) && !Filled(form.role)
    ensures UpdateUserAsWritten(store, id, form, None).status == Ok
  {
    var patch := BuildPatch(form, None);
    assert |patch| != 0 && !PatchRefused(store, id, patch) by {
      assert Name in patch && Role !in patch && Email !in patch;
    }
    AsWrittenAccepted(store, id, form, None);
  }

  /** With the correction, a confirmed new password is the one login accepts
      afterwards. */
  lemma UpdateThenLoginWithNewPassword(store: map<Id, User>, id: Id, form: UserForm, avatar: Option<Url>)
    requires UniqueEmails(store) && id in store
    requires UpdateUser(store, id, form, avatar).status == Ok && Filled(form.newPassword)
    ensures var s := UpdateUser(store, id, form, avatar).state;
      UniqueEmails(s) && Login(s, Some(s[id].email), form.newPassword).status == Ok
  {
    UpdateKeepsUniqueEmails(store, id, form, avatar);
  }

  /** An update keeps emails unique: the unique index refuses an email
      another user holds. */
  lemma UpdateKeepsUniqueEmails(store: map<Id, User>, id: Id, form: UserForm, avatar: Option<Url>)
    requires UniqueEmails(store)
    ensures UniqueEmails(UpdateUser(store, id, form, avatar).state)
  {
    var r := UpdateUser(store, id, form, avatar);
    if r.status == Ok {
      var patch := PatchWithPassword(form, avatar);
      assert !PatchRefused(store, id, patch);
      ReplaceKeepsUniqueEmails(store, id, ApplyPatchWithPassword(store[id], patch));
    }
  }

  /** An update keeps every role within the enum: the validator refuses any
      other. */
  lemma UpdateKeepsValidRoles(store: map<Id, User>, id: Id, form: UserForm, avatar: Option<Url>)
    requires ValidRoles(store)
    ensures ValidRoles(UpdateUser(store, id, form, avatar).state)
  {
    var r := UpdateUser(store, id, form, avatar);
    if r.status == Ok {
      var patch := PatchWithPassword(form, avatar);
      assert !PatchRefused(store, id, patch);
      ReplaceKeepsValidRoles(store, id, ApplyPatchWithPassword(store[id], patch));
    }
  }

  /** Replacing one user keeps emails unique when the email it gets is its
      own or one no other user holds. */
  lemma ReplaceKeepsUniqueEmails(store: map<Id, User>, id: Id, v: User)
    requires UniqueEmails(store) && id in store
    requires v.email == store[id].email || forall other | other in store && other != id :: store[other].email != v.email
    ensures UniqueEmails(store[id := v])
  {
  }

  /** Replacing one user by one whose role is in the enum keeps every role
      in the enum. */
  lemma ReplaceKeepsValidRoles(store: map<Id, User>, id: Id, v: User)
    requires ValidRoles(store) && KnownRole(v.role)
    ensures ValidRoles(store[id := v])
  {
  }

  /** The handler as written keeps emails unique too. */
  lemma UpdateAsWrittenKeepsUniqueEmails(store: map<Id, User>, id: Id, form: UserForm, avatar: Option<Url>)
    requires UniqueEmails(store)
    ensures UniqueEmails(UpdateUserAsWritten(store, id, form, avatar).state)
  {
    var r := UpdateUserAsWritten(store, id, form, avatar);
    if r.status == Ok {
      var patch := BuildPatch(form, avatar);
      assert !PatchRefused(store, id, patch);
      ReplaceKeepsUniqueEmails(store, id, ApplyPatch(store[id], patch));
    }
  }

  /** The handler as written keeps every role within the enum too. */
  lemma UpdateAsWrittenKeepsValidRoles(store: map<Id, User>, id: Id, form: UserForm, avatar: Option<Url>)
    requires ValidRoles(store)
    ensures ValidRoles(UpdateUserAsWritten(store, id, form, avatar).state)
  {
    var r := UpdateUserAsWritten(store, id, form, avatar);
    if r.status == Ok {
      var patch := BuildPatch(form, avatar);
      assert !PatchRefused(store, id, patch);
      ReplaceKeepsValidRoles(store, id, ApplyPatch(store[id], patch));
    }
  }

  /** Deleting a user keeps emails unique and roles within the enum. */
  lemma DeleteKeepsInvariants(store: map<Id, User>, id: Id)
    requires UniqueEmails(store) && ValidRoles(store)
    ensures UniqueEmails(DeleteUser(store, id).state) && ValidRoles(DeleteUser(store, id).state)
  {
  }

  /** A freshly registered user is refused by the admin gate. */
  lemma RegisteredNotAdmin(form: Registration)
    requires Filled(form.email) && Filled(form.password)
    ensures IsAdmin(Some(Registered(form))) == Refuse(Forbidden, MsgAccessDenied)
  {
  }

  /** The update route is not behind `isAdmin`, so any stored user who sends
      `role: "admin"` and nothing else is stored as an admin, and the gate
      then lets them through. */
  lemma SelfPromotion(store: map<Id, User>, id: Id)
    requires id in store
    ensures var form := UserForm(None, None, None, None, None, None, None, None, None, None, None, Some(AdminRole));
      var r := UpdateUserAsWritten(store, id, form, None);
      r.status == Ok && IsAdmin(Some(r.state[id])).Next?
  {
    var form := UserForm(None, None, None, None, None, None, None, None, None, None, None, Some(AdminRole));
    assert PasswordCheck(store[id], form).PasswordsAccepted?;
    var patch := BuildPatch(form, None);
    assert |patch| != 0 && !PatchRefused(store, id, patch) && patch[Role] == AdminRole by {
      assert Role in patch && Email !in patch;
    }
    AsWrittenAccepted(store, id, form, None);
  }

  /** A body holding only fields the schema lacks gets past the empty-patch
      check and changes nothing. */
  lemma UnknownFieldsOnly(store: map<Id, User>, id: Id, form: UserForm)
    requires id in store && PasswordCheck(store[id], form).PasswordsAccepted?
    requires !Filled(form.name) && !Filled(form.email) && !Filled(form.role) && !Filled(form.newPassword)
    requires Filled(form.phone)
    ensures UpdateUserAsWritten(store, id, form, None).status == Ok
    ensures UpdateUserAsWritten(store, id, form, None).state == store
  {
    var patch := BuildPatch(form, None);
    assert |patch| != 0 && !PatchRefused(store, id, patch) && ApplyPatch(store[id], patch) == store[id] by {
      assert Phone in patch;
      assert Name !in patch && Email !in patch && Role !in patch && Avatar !in patch;
      ApplyPatchPaths(store[id], patch);
    }
    AsWrittenAccepted(store, id, form, None);
    assert store[id := store[id]] == store;
  }
}
